=== FILE: README.md ===
# Metadata schema engine — a Dafny model

This project models the pure schema logic of the metadata engine in
`src/meta_meta.js` (`_md`). The engine keeps one in-memory metadata
document. It describes every data class of an application: enumerations,
catalogs, documents, registers, characteristic and account plans. Each class
has its fields and tabular sections. The engine uses this document for these
jobs:

- looking up class and field descriptors, including the built-in fields it
  synthesises (`get`, `get_classes`, `printing_plates`);
- mapping a field's type descriptor to a column type in two SQL dialects:
  the legacy in-browser dialect and PostgreSQL (`sql_type`, `sql_composite`,
  `sql_mask`);
- choosing the UI control for a field (`control_by_type`), and laying out a
  tabular-section grid from the field descriptors (`ts_captions`);
- translating names between the internal snake_case convention and the
  external 1C convention (`syns_js`, `syns_1с`, `class_name_from_1c`,
  `class_name_to_1c`);
- resolving a reference field to its object manager(s), with the
  single-manager memo slot `_mgr` (`mgr_by_class_name`, `value_mgr`);
- assembling the table-creation script for all data classes
  (`create_tables`).

Modules, one per file:

| file | module | models |
|---|---|---|
| wrappers.dfy | `Wrappers` | `Option`, and `JsResult` (defined / `undefined` / `TypeError`) |
| strings.dfy | `Strings` | `split`, `join`, `indexOf` on strings and arrays, `substr`, `replace(/,/g, …)`, number-to-string |
| objects.dfy | `Objects` | a JS object as a key order plus a map (`for…in` order and lookup) |
| meta_types.dfy | `MetaTypes` | type, field, tabular-section, class and document descriptors |
| naming.dfy | `Naming` | the synonym tables and class-name translation |
| sql_mapper.dfy | `SqlMapper` | column types and the discriminator column |
| controls.dfy | `Controls` | control selection |
| schema_store.dfy | `SchemaStore` | `get`, `get_classes`, `printing_plates` |
| resolver.dfy | `Resolver` | `mgr_by_class_name` and `value_mgr` |
| captions.dfy | `Captions` | `ts_captions` |
| ddl.dfy | `Ddl` | `create_tables` |

JavaScript semantics are modelled as follows:

- A missing optional key (`str_len`, `digits`, `fraction_figits`) is an `Option`.
- `date_part` is a string, and `""` stands for "absent". The code only tests
  its truthiness and compares it with literals.
- `obj[undefined]` reads the key `"undefined"`.
- `a[i] || v` falls back to `v` both outside the array and on an empty string.
- `undefined < 5` is false.
- `fraction_figits == 0` holds only for a present zero.
- A read through `undefined` throws. Where the caller can observe this, it is
  a result variant (`JsResult.TypeError`, `MgrResult.Thrown`). Where the
  source simply requires its input to exist, it is a precondition.

## Model

| member | source | states |
|---|---|---|
| Naming.SynsJs | src/meta_meta.js:499-520 | A built-in external name gives its table entry. A name found in neither table is returned unchanged. Otherwise, when the first position of the name in the external overflow table holds a non-empty internal name, that name is the result; any result other than the name itself comes from there and is non-empty, so an empty entry falls back to the name. |
| Naming.Syns1c | src/meta_meta.js:528-545 | The mirror of `SynsJs`: the built-in reverse table first; then, at the first position of the name in the internal overflow table, a non-empty external name is the result; else the name itself. |
| Naming.AtOr | src/meta_meta.js:519 | `a[i] \|\| v` is the element when `i` is in bounds and the element is non-empty, and the fallback in every other case. |
| Naming.BuiltinRoundTrip | src/meta_meta.js:499-545 | Every built-in internal name survives the trip out and back, whatever the overflow tables hold. |
| Naming.BuiltinNotInjective | src/meta_meta.js:511-514 | The external table is many-to-one: `Owner` and `Ссылка` come back as `Owner_Key` and `Ref_Key`. |
| Strings.IndexOfDistinct | src/meta_meta.js:519 | In a table without repeats, `indexOf` of the element at `i` is `i`. |
| Naming.OverflowRoundTrip | src/meta_meta.js:517-519 | With lock-step overflow tables, each same-position pair translates both ways. Both round trips are the identity. |
| Naming.BuiltinNamesDotFree | src/meta_meta.js:529-541 | Helper of `BuiltinClassNameRoundTrip`: no built-in internal or external name contains a dot. |
| Naming.KindWordsDotFree | src/meta_meta.js:569-588 | Helper of the class-name round trips: no external kind word contains a dot. |
| Naming.KindPrefixesDotFree | src/meta_meta.js:604-623 | Helper of the class-name round trips: no internal kind prefix contains a dot. |
| Naming.KindTablesInverse | src/meta_meta.js:564-627 | Helper of the class-name round trips: the two kind tables are mutually inverse over all ten kinds. |
| Naming.ClassNameFrom1c | src/meta_meta.js:564-592 | A name without a dot becomes an enumeration path `enm.<name>`. |
| Naming.ClassNameTo1c | src/meta_meta.js:599-627 | A name without a dot becomes `Перечисление.<name>`. |
| Naming.FromKnownKind | src/meta_meta.js:566-590 | `Kind.Name` with a known kind word becomes `prefix.` followed by the internal synonym of the name. |
| Naming.ToKnownKind | src/meta_meta.js:601-625 | `prefix.name` with a known prefix becomes the kind word, a dot and the external synonym of the name. |
| Naming.ToUnknownKind | src/meta_meta.js:601-625 | With an unknown prefix the whole input is kept and the external synonym of the name is appended with no separator. |
| Naming.ProcessKindsUntranslated | src/meta_meta.js:601-625 | `bp.name` and `tsk.name` have no kind word: they come out as the path followed by the external synonym of the name. |
| Naming.ProcessKindsUnlisted | src/meta_meta.js:604-623 | Helper of `ProcessKindsUntranslated`: neither `bp` nor `tsk` is a prefix of the kind table. |
| Naming.FromUnknownKind | src/meta_meta.js:566-590 | With an unknown kind word the whole input is kept and the synonym is appended with no separator. |
| Naming.ClassNameRoundTrip | src/meta_meta.js:564-627 | For a known prefix, the trip out and back is the identity when the name's synonym round-trips and is dot-free. |
| Naming.ExternalNameRoundTrip | src/meta_meta.js:564-627 | The same for a known external kind word, starting from the 1C side. |
| Naming.BuiltinClassNameRoundTrip | src/meta_meta.js:564-627 | Every `prefix.builtin` path round-trips, whatever the overflow tables hold. |
| SqlMapper.SqlType | src/meta_meta.js:208-255 | The legacy dialect only yields one of six column types. The two JSON columns are JSON whatever their type. |
| SqlMapper.ReferenceColumn | src/meta_meta.js:213-224 | In PostgreSQL, a reference type whose members are all enumerations gives varchar(100). Otherwise it gives `uuid` without a declared length, and a varchar of the declared length but at least 36 wide with one. The column is never narrower than a guid. |
| SqlMapper.StringColumn | src/meta_meta.js:226-227 | A non-reference type with a declared length is a varchar of that length in PostgreSQL, `text` for length zero, and `CHAR` in the legacy dialect. |
| SqlMapper.DateColumn | src/meta_meta.js:229-237 | A date part is a legacy `Date`. In PostgreSQL `date` stays a date, `date_time` becomes a timestamp with time zone, and any other part a time without time zone. |
| SqlMapper.IntegerColumn | src/meta_meta.js:239-241 | Digits with a zero scale give `integer` below seven digits and `bigint` from seven on in PostgreSQL, and `INT` in the legacy dialect. |
| SqlMapper.DecimalColumn | src/meta_meta.js:239-243 | Digits with any other scale, or none, give `numeric(digits,scale)` in PostgreSQL and `FLOAT` in the legacy dialect. |
| SqlMapper.MemberTypeColumn | src/meta_meta.js:245-252 | When no earlier rule applies, a `boolean` member gives a boolean column and otherwise a `json` member a JSON column, in both dialects; anything else is a 255-wide varchar in PostgreSQL and `CHAR` in the legacy dialect. |
| SqlMapper.DialectsAgree | src/meta_meta.js:208-255 | The dialect never changes which rule applies: the legacy type is the legacy rendering of the PostgreSQL type, for every input. |
| SqlMapper.LegacyVarchar | src/meta_meta.js:224-227 | Helper of `DialectsAgree`: every varchar column is a legacy `CHAR`. |
| SqlMapper.LegacyNumeric | src/meta_meta.js:243 | Helper of `DialectsAgree`: every numeric column is a legacy `FLOAT`. |
| SqlMapper.LegacyIntegers | src/meta_meta.js:241 | Helper of `DialectsAgree`: both integer widths are a legacy `INT`. |
| SqlMapper.SqlMask | src/meta_meta.js:289-292 | Starts with `, `, then the `_t_.` alias when asked for, then the name between two backticks. The length fixes whether the alias is present, and the name can be read back from its end. |
| SqlMapper.DiscriminatorName | src/meta_meta.js:267-271 | Ends in `_T`. Before it stand exactly the first 29 characters of the base name (`f0`, or `f` when `f0` is empty), or the whole base name when it is shorter. |
| SqlMapper.SqlComposite | src/meta_meta.js:264-279 | Empty exactly when the field has at most one member type or is named `type`. Otherwise it is the discriminator column in the dialect's quoting and type. |
| Controls.NumericControl | src/meta_meta.js:408-411 | `calck` exactly when the scale is present and below 5, else `edn`. |
| Controls.ControlByType | src/meta_meta.js:401-439 | Always one of the seven tags. A boolean sample on a boolean-capable type gives the checkbox. `ocombo` exactly when no sample decides and the type is a reference. `txt` exactly when nothing earlier applies and the string is long or unbounded. A number or date sample that decides gives the numeric editor or the calendar. Without a deciding sample a non-reference type is tried in order: a date part gives the calendar, digits the numeric editor, a leading `boolean` member the checkbox, and `ed` is the last resort. |
| Controls.IgnoredSample | src/meta_meta.js:404-417 | A sample of a kind the type does not accept changes nothing. |
| Controls.DecidingSample | src/meta_meta.js:404-415 | A deciding sample picks the control of its own kind, ahead of `is_ref`. |
| Controls.BooleanSampleBeatsReference | src/meta_meta.js:404-417 | A boolean-capable reference type gets the checkbox for a boolean sample and the reference picker without one. |
| SchemaStore.KindAndName | src/meta_meta.js:131-134 | The kind segment is dot-free. A path without a dot reads the name `"undefined"`. |
| SchemaStore.KindAndNameOfPath | src/meta_meta.js:131 | A two-segment path gives back its two segments. |
| SchemaStore.GetClass | src/meta_meta.js:133-134 | Throws exactly when the kind is missing. Otherwise it is the class stored under the name, if any. |
| SchemaStore.TaskKindIsBoth | src/meta_meta.js:137-138 | The kind tests are substring tests: `tsk` counts both as a document and as a catalog. |
| SchemaStore.DocumentKinds | src/meta_meta.js:137-138 | `doc` and `bp` count only as documents. |
| SchemaStore.CatalogKinds | src/meta_meta.js:137-138 | `cat`, `cch` and `cacc` count only as catalogs. |
| SchemaStore.PlainKinds | src/meta_meta.js:137-138 | Enumerations and registers are neither. |
| SchemaStore.Builtin | src/meta_meta.js:136-172 | `number_doc`, `date` and `posted` are synthesised exactly on document-like kinds, `id` and `name` exactly on catalog-like kinds, `_deleted`, `is_folder` and `ref` on every kind. A synthesised field has one member type: `boolean` for `posted`, `_deleted` and `is_folder`, `string` for `number_doc`, `id` and `name`. `ref` is a reference to the class itself; no other built-in is a reference. |
| SchemaStore.BuiltinNamesOnly | src/meta_meta.js:140-172 | Only the eight built-in names are synthesised. `_deleted`, `is_folder` and `ref` are synthesised on every kind. |
| SchemaStore.DocumentBuiltins | src/meta_meta.js:140-149 | On document kinds, `number_doc` is an 11-character string and `date` is a date-time. |
| SchemaStore.Get | src/meta_meta.js:129-181 | Without a field name it returns the class descriptor; it throws exactly when the class lookup throws (a missing kind), and is otherwise `undefined` for a missing class. A built-in wins over the class's own fields. Otherwise the result is defined exactly when the class has the field. A missing class or kind throws. |
| SchemaStore.GetClasses | src/meta_meta.js:188-196 | Lists every kind of the document, in its order. For a well-formed kind, a name is listed exactly when the kind holds that class, and no name is listed twice. |
| SchemaStore.ClassesInEnumerationOrder | src/meta_meta.js:188-196 | Of two names listed under a kind, the earlier one comes first in the kind's enumeration order. |
| SchemaStore.ListedClassesResolve | src/meta_meta.js:188-196 | Every class `get_classes` lists is found again by `get` on its path. |
| SchemaStore.PrintingPlates | src/meta_meta.js:552-557 | Only the `printing_plates` of listed document classes change. Every other kind, class and field is left as it was, and a missing catalog changes nothing. |
| SchemaStore.PrintingPlatesIdempotent | src/meta_meta.js:552-557 | Attaching the same catalog twice is the same as attaching it once. |
| Resolver.MgrByClassName | src/meta_meta.js:301-307 | A manager is found only for a dotted path. |
| Resolver.MgrByClassPath | src/meta_meta.js:301-307 | On `kind.name` it is the registry entry, and nothing when the kind or the name is unregistered. |
| Resolver.TypeMgr | src/meta_meta.js:346-348 | A manager is found only when the type's kind is registered. |
| Resolver.TypeMgrByClassName | src/meta_meta.js:301-348 | On a `kind.name` type, the lookup `value_mgr` performs is `mgr_by_class_name`'s, and finds a manager exactly when both the kind and the name are registered. |
| Resolver.Candidates | src/meta_meta.js:344-349 | At most one candidate per member type. |
| Resolver.Own | src/meta_meta.js:346-348 | A member type contributes at most one manager: nothing exactly when it does not resolve, else the manager it resolves to. |
| Resolver.CandidatesMembers | src/meta_meta.js:344-349 | A manager is a candidate exactly when some member type resolves to it. |
| Resolver.CandidatesFirst | src/meta_meta.js:344-349 | The first candidate is the manager of the first member type that resolves. |
| Resolver.CandidatesSingle | src/meta_meta.js:344-349 | A single member type gives its own manager, or no candidate when it does not resolve. |
| Resolver.CandidatesAppend | src/meta_meta.js:344-349 | Declaration order is kept: the candidates of a concatenation of member-type lists are those of the first part followed by those of the second. |
| Resolver.FirstProbed | src/meta_meta.js:359-364 | Returns the first candidate whose store holds the identifier, and nothing exactly when no candidate's store does. |
| Resolver.Memoise | src/meta_meta.js:324-328 | Returns one manager exactly when given one, and that manager; nothing otherwise. Only the slot of the descriptor may change. It changes only to the given manager and only for a one-member type, and a one-member type always stores a given manager. |
| Resolver.ValueMgr | src/meta_meta.js:319-365 | Only the memo slot of the type descriptor can change. A filled slot answers at once, unchanged. A slot is written only for a one-member type, and only with the manager returned. |
| Resolver.SingleReferenceMemoised | src/meta_meta.js:321-333 | A one-member reference type resolves to the manager `mgr_by_class_name` names and fills the slot. A second call returns the same answer whatever its other arguments. |
| Resolver.SingleCandidateNotMemoised | src/meta_meta.js:324-351 | A multi-type field with one surviving candidate returns it and leaves the slot empty. |
| Resolver.AllCandidates | src/meta_meta.js:350-354 | With `array_enabled`, a candidate count other than one and a row value that is not the blank guid, all candidates are returned in declaration order; none when no member type resolves. |
| Resolver.ProbedCandidate | src/meta_meta.js:356-365 | Without `array_enabled`, a non-blank guid picks the first candidate whose store holds it, and nothing when none does. |
| Resolver.TaggedValue | src/meta_meta.js:335-339 | On a multi-type field, a value tagged with a type of a registered kind resolves through that type alone, to its manager or to nothing, and the slot stays empty. |
| Resolver.MissingKindThrows | src/meta_meta.js:344-348 | A member type whose kind is not registered makes the candidate search throw, whatever the row holds. |
| Resolver.BlankGuidFirstCandidate | src/meta_meta.js:350-351 | A row value equal to the blank guid returns the first candidate even when there are several, and nothing when there is none; the slot stays empty on a multi-type field. |
| Resolver.DataObjOwner | src/meta_meta.js:356-357 | Without `array_enabled` and with other than one candidate, a data object in the row answers with its own manager. |
| Captions.Label | src/meta_meta.js:482 | A non-empty synonym gives a header of the same length, with every comma turned into a space and every other character kept. An empty synonym gives the field name. |
| Captions.VisibleMembers | src/meta_meta.js:478-480 | A field gets a column exactly when it is visited and not hidden. |
| Captions.GridContents | src/meta_meta.js:470-486 | The accumulated grid lists `row` and then the visible fields. Its headers, cell types and sortings are the comma-joins of the column lists. |
| Captions.BuildGrid | src/meta_meta.js:467-486 | The grid built by the loop: `row` and each visible field, with `№`, `cntr` and `na` ahead of the per-field headers, controls and sortings, and the fixed widths and alignments. |
| Captions.TsCaptions | src/meta_meta.js:449-491 | The field grid is built exactly when the class has no form with an `obj` part. `undefined` is returned exactly when that form lacks the section. The contact-information section visits `type`, `kind` and `presentation`. The visited fields need to exist only when the grid is built. |
| Captions.HeadersAlign | src/meta_meta.js:471-482 | When field names without a synonym are comma-free, the header string splits back into one header per column. |
| Captions.TypesAlign | src/meta_meta.js:476-483 | The cell-type string splits back into one control per column. |
| Captions.SortingsAlign | src/meta_meta.js:475-484 | The sorting string splits back into one `na` per column. |
| Ddl.DataNames | src/meta_meta.js:659-662 | A class is collected exactly when its kind is one of the listed kinds and it is listed under that kind. |
| Ddl.DataNamesSingle | src/meta_meta.js:659-662 | For one kind, the collected pairs are that kind's classes in the order `get_classes` lists them, and nothing for a kind the document lacks. |
| Ddl.DataNamesAppend | src/meta_meta.js:658-662 | Collection goes kind by kind in the order of the kind list: a concatenation of kind lists collects the first list's classes, then the second's. |
| Ddl.Assemble | src/meta_meta.js:639-655 | The loop appends the statements from the last collected class to the first. |
| Ddl.CreateTables | src/meta_meta.js:634-666 | The script is the dialect preamble followed by one statement per collected class, in reverse collection order. |
| Ddl.LastFirst | src/meta_meta.js:651-664 | The first statement is that of the last class collected. |
| Ddl.ScriptedClasses | src/meta_meta.js:659-662 | A class is scripted exactly when its kind is one of the nine table kinds and `get_classes` lists it. |

## Left out

- `init`, `meta_from_pouch` and the `pouch_change` subscriber are left out. They fetch and merge documents from a persistent store and react to change events, which is I/O. `create_managers` builds runtime manager objects and is also left out. The model takes the loaded document as a value.
- The characteristic branch of `value_mgr` is left out: field `value` of a row that carries `property` or `param`. It calls `is_data_obj`, the `cch.properties` store and `is_new` on foreign objects. The model returns `ViaProperty` there, without a manager.
- The form branch of `ts_captions` mixes the form's own layout into `source`. The model reports `FormLayout` and leaves the mixed-in content out.
- `create_tables` hands the script to a callback or to `saveFile`. Both are I/O. The model returns the script. `get_sql_struct` is a parameter, because the data managers are not part of this model. The source runs the steps through two functions that call each other synchronously, one class per call; the model runs the same steps in a loop.
- `$p.utils.is_guid` and the managers' `get(id, false, true)` existence probe are parameters of `ValueMgr`. The blank guid is written out as its 36-character nil form; its definition in the utilities is not part of this model.
- `value_mgr` tests `instanceof DataObj` and compares with the blank guid using loose equality. The model replaces both with a tag on the cell value. A data object never equals the blank guid string.
- The model treats only values of the built-in tables as table entries. It does not model inherited prototype keys such as `constructor`, which `synJS[v]` and the kind lookups would also find.
- `GetClasses` lists only the kinds. `for…in` over the document would also list its top-level naming arrays (`syns_js`, `syns_1с`), which are no kinds and hold no classes.
- The sample value of `control_by_type` is reduced to its runtime kind: boolean, number, `Date`, other, or none. The source only ever inspects the kind.
- `ts_captions` checks the form's section by membership in a set. An entry that is present but falsy is not modelled.
- Ddl.CreateTables: requires at least one class to collect. With none, the source reads `data_names[-1]` and throws before it emits anything.
- Captions.TsCaptions: requires the class and the section to exist, because the source reads them without checks. Without a form that has an `obj` part it also requires each visited field to exist, because the grid loop reads them without checks.
- SchemaStore.PrintingPlates: requires every listed class to exist among the documents, because the source assigns into `_m.doc[i]` unchecked.
- SqlMapper.SqlComposite: requires the field to be in the class's field table, because the source reads `mf[f].type` unchecked and throws otherwise.
- SchemaStore.Get: a path whose kind segment is `syns_js` or `syns_1с` reads the naming array in the source: without a field name it yields `undefined` or an array element. The model keeps the naming arrays apart from the kinds, so `Get` reports `TypeError` there.
- SqlMapper.DiscriminatorName: `substr(0, 29)` counts UTF-16 code units, while a Dafny string is a sequence of Unicode scalar values. The two differ on base names with characters outside the Basic Multilingual Plane.

## Behaviour of the code worth knowing

- A multi-type field with one surviving candidate is not memoised; only one-member types are (`Resolver.SingleCandidateNotMemoised`).
- A reference type with a boolean member gets the checkbox for a boolean sample, not the reference picker (`Controls.BooleanSampleBeatsReference`).
- `class_name_to_1c` has no kind word for business processes (`bp`) and tasks (`tsk`), although both are table kinds: `tsk.foo` comes out as `tsk.foo` followed by the external synonym of `foo` (`Naming.ProcessKindsUntranslated`).
- `get` without a field name throws for an unknown kind and is `undefined` for an unknown class. With a field name that is not built in, it throws for an unknown kind and for an unknown class (`SchemaStore.Get`).

=== FILE: captions.dfy ===
/** The column layout of a tabular-section grid, built from the section's
    field descriptors when the class has no custom form. */
module Captions {
  import opened Strings
  import opened MetaTypes
  import opened SchemaStore
  import opened Controls

  /** The layout strings written into `source`: the column fields and the
      comma-separated headers, widths, minimum widths, alignments, sortings
      and cell types. */
  datatype Grid = Grid(
    fields: seq<string>,
    headers: string,
    widths: string,
    minWidths: string,
    aligns: string,
    sortings: string,
    types: string)

  /** What `ts_captions` does: the custom form lacks the section (returns
      `undefined`); the form's own layout is mixed in (returns `true`, the
      mixed-in content is not modelled); or the grid is built from the fields. */
  datatype CaptionsResult = SectionNotInForm | FormLayout | Columns(grid: Grid)

  /** The fixed keys visited for the `contact_information` section. */
  const ContactInformationKeys: seq<string> := ["type", "kind", "presentation"]

  /** The keys the loop visits: the fixed triple for `contact_information`,
      else the section's own fields in enumeration order. */
  function VisitedKeys(tsName: string, ts: TabularSection): seq<string> {
    if tsName == "contact_information" then ContactInformationKeys else ts.fields.keys
  }

  /** A column header: the synonym with commas turned into spaces, or the
      field name when the synonym is empty. */
  function Label(f: string, mf: FieldDesc): (h: string)
    ensures mf.synonym != "" ==> ',' !in h && |h| == |mf.synonym|
    ensures mf.synonym != "" ==>
      forall i :: 0 <= i < |h| ==> h[i] == (if mf.synonym[i] == ',' then ' ' else mf.synonym[i])
    ensures mf.synonym == "" ==> h == f
  {
    if mf.synonym != "" then ReplaceAll(mf.synonym, ',', ' ') else f
  }

  /** Every listed key has a field descriptor. */
  predicate AllKnown(keys: seq<string>, fields: map<string, FieldDesc>) {
    forall i :: 0 <= i < |keys| ==> keys[i] in fields
  }

  /** The visited keys whose fields are not hidden, in visiting order. */
  function Visible(keys: seq<string>, fields: map<string, FieldDesc>): (vis: seq<string>)
    requires AllKnown(keys, fields)
    ensures AllKnown(vis, fields)
    ensures |vis| <= |keys|
  {
    if |keys| == 0 then []
    else
      var last := keys[|keys| - 1];
      Visible(keys[..|keys| - 1], fields) + (if fields[last].hide then [] else [last])
  }

  /** A key is visible exactly when it is visited and its field is not hidden. */
  lemma {:induction false} VisibleMembers(keys: seq<string>, fields: map<string, FieldDesc>, k: string)
    requires AllKnown(keys, fields)
    ensures k in Visible(keys, fields) <==> k in keys && !fields[k].hide
  {
    if |keys| > 0 {
      var init, last := keys[..|keys| - 1], keys[|keys| - 1];
      assert keys == init + [last];
      VisibleMembers(init, fields, k);
    }
  }

  /** The header of each listed field. */
  function Labels(vis: seq<string>, fields: map<string, FieldDesc>): (hs: seq<string>)
    requires AllKnown(vis, fields)
    ensures |hs| == |vis|
  {
    if |vis| == 0 then []
    else Labels(vis[..|vis| - 1], fields) + [Label(vis[|vis| - 1], fields[vis[|vis| - 1]])]
  }

  /** The control tag of each listed field, chosen without a sample value. */
  function ControlsOf(vis: seq<string>, fields: map<string, FieldDesc>): (cs: seq<string>)
    requires AllKnown(vis, fields)
    ensures |cs| == |vis|
    ensures forall i :: 0 <= i < |cs| ==> cs[i] in ControlTags
  {
    if |vis| == 0 then []
    else ControlsOf(vis[..|vis| - 1], fields) + [ControlByType(fields[vis[|vis| - 1]].fieldType, NoSample)]
  }

  /** One more visited key extends the visible list by that key unless its
      field is hidden. */
  lemma VisibleStep(keys: seq<string>, i: nat, fs: map<string, FieldDesc>)
    requires i < |keys| && AllKnown(keys, fs)
    ensures Visible(keys[..i + 1], fs) ==
      Visible(keys[..i], fs) + (if fs[keys[i]].hide then [] else [keys[i]])
  {
    assert keys[..i + 1][..i] == keys[..i];
  }

  /** `n` copies of `s`. */
  function Repeat(s: string, n: nat): (r: seq<string>)
    ensures |r| == n && forall i :: 0 <= i < n ==> r[i] == s
  {
    if n == 0 then [] else Repeat(s, n - 1) + [s]
  }

  /** The form block has an `obj` part, so the form's layout is used. */
  predicate HasFormObj(c: ClassDesc) {
    c.form.Some? && c.form.value.obj.Some?
  }

  /** The grid before any field: the row-number column only. */
  const FirstColumn: Grid := Grid(["row"], "№", "40", "", "", "na", "cntr")

  /** One loop step of the source for a visible field `f`: its name, header,
      control and sorting are appended. */
  function AddColumn(g: Grid, f: string, mf: FieldDesc): Grid {
    g.(fields := g.fields + [f],
       headers := g.headers + "," + Label(f, mf),
       types := g.types + "," + ControlByType(mf.fieldType, NoSample),
       sortings := g.sortings + ",na")
  }

  /** The grid after the visible fields `vis`, as the source accumulates it. */
  function GridOf(vis: seq<string>, fs: map<string, FieldDesc>): Grid
    requires AllKnown(vis, fs)
  {
    if |vis| == 0 then FirstColumn
    else AddColumn(GridOf(vis[..|vis| - 1], fs), vis[|vis| - 1], fs[vis[|vis| - 1]])
  }

  /** The accumulated grid lists the fields after `row`, and its headers,
      cell types and sortings are the comma-joins of the column lists. */
  lemma GridContents(vis: seq<string>, fs: map<string, FieldDesc>)
    requires AllKnown(vis, fs)
    ensures var g := GridOf(vis, fs);
      && g.fields == ["row"] + vis
      && g.headers == Join(["№"] + Labels(vis, fs), ',')
      && g.types == Join(["cntr"] + ControlsOf(vis, fs), ',')
      && g.sortings == Join(["na"] + Repeat("na", |vis|), ',')
      && g.widths == "40" && g.minWidths == "" && g.aligns == ""
  {
    GridFields(vis, fs);
    GridHeaders(vis, fs);
    GridTypes(vis, fs);
    GridSortings(vis, fs);
  }

  lemma {:induction false} GridFields(vis: seq<string>, fs: map<string, FieldDesc>)
    requires AllKnown(vis, fs)
    ensures GridOf(vis, fs).fields == ["row"] + vis
    ensures GridOf(vis, fs).widths == "40" && GridOf(vis, fs).minWidths == "" && GridOf(vis, fs).aligns == ""
  {
    if |vis| > 0 {
      var init := vis[..|vis| - 1];
      assert vis == init + [vis[|vis| - 1]];
      GridFields(init, fs);
    }
  }

  lemma {:induction false} GridHeaders(vis: seq<string>, fs: map<string, FieldDesc>)
    requires AllKnown(vis, fs)
    ensures GridOf(vis, fs).headers == Join(["№"] + Labels(vis, fs), ',')
  {
    if |vis| > 0 {
      var init, f := vis[..|vis| - 1], vis[|vis| - 1];
      GridHeaders(init, fs);
      JoinSnoc(["№"] + Labels(init, fs), Label(f, fs[f]), ',');
      assert ["№"] + Labels(vis, fs) == ["№"] + Labels(init, fs) + [Label(f, fs[f])];
    }
  }

  lemma {:induction false} GridTypes(vis: seq<string>, fs: map<string, FieldDesc>)
    requires AllKnown(vis, fs)
    ensures GridOf(vis, fs).types == Join(["cntr"] + ControlsOf(vis, fs), ',')
  {
    if |vis| > 0 {
      var init, f := vis[..|vis| - 1], vis[|vis| - 1];
      GridTypes(init, fs);
      var c := ControlByType(fs[f].fieldType, NoSample);
      JoinSnoc(["cntr"] + ControlsOf(init, fs), c, ',');
      assert ["cntr"] + ControlsOf(vis, fs) == ["cntr"] + ControlsOf(init, fs) + [c];
    }
  }

  lemma {:induction false} GridSortings(vis: seq<string>, fs: map<string, FieldDesc>)
    requires AllKnown(vis, fs)
    ensures GridOf(vis, fs).sortings == Join(["na"] + Repeat("na", |vis|), ',')
  {
    if |vis| > 0 {
      var init := vis[..|vis| - 1];
      GridSortings(init, fs);
      JoinSnoc(["na"] + Repeat("na", |init|), "na", ',');
      assert ["na"] + Repeat("na", |vis|) == ["na"] + Repeat("na", |init|) + ["na"];
    }
  }

  /** The grid built from the visited keys `keys` of a section whose field
      table is `fs`: a leading row-number column, then one column per field
      that is not hidden. */
  method BuildGrid(keys: seq<string>, fs: map<string, FieldDesc>) returns (g: Grid)
    requires AllKnown(keys, fs)
    ensures var vis := Visible(keys, fs);
      && g.fields == ["row"] + vis
      && g.headers == Join(["№"] + Labels(vis, fs), ',')
      && g.types == Join(["cntr"] + ControlsOf(vis, fs), ',')
      && g.sortings == Join(["na"] + Repeat("na", |vis|), ',')
      && g.widths == "40" && g.minWidths == "" && g.aligns == ""
  {
    g := FirstColumn;
    ghost var vis: seq<string> := [];
    var i := 0;
    assert keys[..0] == [];
    while i < |keys|
      invariant 0 <= i <= |keys|
      invariant vis == Visible(keys[..i], fs)
      invariant g == GridOf(vis, fs)
    {
      var f := keys[i];
      VisibleStep(keys, i, fs);
      if !fs[f].hide {
        assert (vis + [f])[..|vis|] == vis;
        g := AddColumn(g, f, fs[f]);
        vis := vis + [f];
      }
      i := i + 1;
    }
    assert keys[..|keys|] == keys;
    GridContents(vis, fs);
  }

  /** `ts_captions(class_name, ts_name)`. The source reads the class and the
      section without checks, so both must exist; each visited field is read
      without a check only while the grid is built, so only a class without a
      custom form needs them all. */
  method TsCaptions(m: Meta, classPath: string, tsName: string) returns (r: CaptionsResult)
    requires GetClass(m, classPath).Defined?
    requires tsName in GetClass(m, classPath).value.tabularSections.entries
    requires var c := GetClass(m, classPath).value;
      var ts := c.tabularSections.entries[tsName];
      !HasFormObj(c) ==> AllKnown(VisitedKeys(tsName, ts), ts.fields.entries)
    ensures var c := GetClass(m, classPath).value;
      && (r.Columns? <==> !HasFormObj(c))
      && (r.SectionNotInForm? <==> HasFormObj(c) && tsName !in c.form.value.obj.value.tabularSections)
    ensures r.Columns? ==>
      var ts := GetClass(m, classPath).value.tabularSections.entries[tsName];
      var fs := ts.fields.entries;
      var vis := Visible(VisitedKeys(tsName, ts), fs);
      && r.grid.fields == ["row"] + vis
      && r.grid.headers == Join(["№"] + Labels(vis, fs), ',')
      && r.grid.types == Join(["cntr"] + ControlsOf(vis, fs), ',')
      && r.grid.sortings == Join(["na"] + Repeat("na", |vis|), ',')
      && r.grid.widths == "40" && r.grid.minWidths == "" && r.grid.aligns == ""
  {
    var c := GetClass(m, classPath).value;
    var mts := c.tabularSections.entries[tsName];
    if HasFormObj(c) {
      if tsName !in c.form.value.obj.value.tabularSections {
        return SectionNotInForm;
      }
      return FormLayout;
    }
    var g := BuildGrid(VisitedKeys(tsName, mts), mts.fields.entries);
    return Columns(g);
  }

  /** The header list splits back into one entry per column, provided every
      visible field without a synonym has a name free of commas (a synonym's
      own commas are replaced by spaces). */
  lemma HeadersAlign(vis: seq<string>, fs: map<string, FieldDesc>)
    requires AllKnown(vis, fs)
    requires forall i :: 0 <= i < |vis| && fs[vis[i]].synonym == "" ==> ',' !in vis[i]
    ensures Split(Join(["№"] + Labels(vis, fs), ','), ',') == ["№"] + Labels(vis, fs)
  {
    LabelsCommaFree(vis, fs);
    var hs := ["№"] + Labels(vis, fs);
    assert forall i :: 1 <= i < |hs| ==> hs[i] == Labels(vis, fs)[i - 1];
    SplitJoin(hs, ',');
  }

  /** No control tag contains a comma. */
  lemma ControlTagsCommaFree()
    ensures forall t :: t in ControlTags ==> ',' !in t
  {
  }

  /** The cell-type list splits back into one entry per column. */
  lemma TypesAlign(vis: seq<string>, fs: map<string, FieldDesc>)
    requires AllKnown(vis, fs)
    ensures Split(Join(["cntr"] + ControlsOf(vis, fs), ','), ',') == ["cntr"] + ControlsOf(vis, fs)
  {
    var ts := ["cntr"] + ControlsOf(vis, fs);
    ControlTagsCommaFree();
    assert forall i :: 1 <= i < |ts| ==> ts[i] == ControlsOf(vis, fs)[i - 1];
    SplitJoin(ts, ',');
  }

  /** The sorting list splits back into one `na` per column. */
  lemma SortingsAlign(n: nat)
    ensures Split(Join(["na"] + Repeat("na", n), ','), ',') == ["na"] + Repeat("na", n)
  {
    SplitJoin(["na"] + Repeat("na", n), ',');
  }

  /** Under the same condition no header contains a comma. */
  lemma {:induction false} LabelsCommaFree(vis: seq<string>, fs: map<string, FieldDesc>)
    requires AllKnown(vis, fs)
    requires forall i :: 0 <= i < |vis| && fs[vis[i]].synonym == "" ==> ',' !in vis[i]
    ensures forall i :: 0 <= i < |vis| ==> ',' !in Labels(vis, fs)[i]
  {
    if |vis| > 0 {
      LabelsCommaFree(vis[..|vis| - 1], fs);
    }
  }
}

=== FILE: controls.dfy ===
/** Choice of the UI control for a field from its type descriptor and,
    optionally, a sample value. */
module Controls {
  import opened MetaTypes

  /** The runtime kind of the sample value (`typeof val`, `val instanceof Date`). */
  datatype Sample = NoSample | BoolVal | NumVal | DateVal | OtherVal

  /** The seven control tags. */
  const ControlTags: set<string> := {"ch", "calck", "edn", "dhxCalendar", "ocombo", "txt", "ed"}

  /** `type.digits` is truthy: present and non-zero. */
  predicate HasDigits(t: TypeDesc) {
    t.digits.Some? && t.digits.value != 0
  }

  /** Spinner or decimal editor: `fraction_figits < 5`, a missing scale
      comparing false. */
  function NumericControl(t: TypeDesc): (r: string)
    ensures r == "calck" <==> (t.fractionFigits.Some? && t.fractionFigits.value < 5)
    ensures r in {"calck", "edn"}
  {
    if t.fractionFigits.Some? && t.fractionFigits.value < 5 then "calck" else "edn"
  }

  /** The sample value is of a kind the declared type accepts, so it decides. */
  predicate SampleDecides(t: TypeDesc, val: Sample) {
    || (val == BoolVal && "boolean" in t.types)
    || (val == NumVal && HasDigits(t))
    || (val == DateVal && t.datePart != "")
  }

  /** A declared string type long or unbounded enough for a multi-line editor. */
  predicate LongString(t: TypeDesc) {
    t.strLen.Some? && (t.strLen.value >= 100 || t.strLen.value == 0)
  }

  /** `control_by_type`: the control tag for type `t` and sample `val`. */
  function ControlByType(t: TypeDesc, val: Sample): (ft: string)
    ensures ft in ControlTags
    ensures val == BoolVal && "boolean" in t.types ==> ft == "ch"
    ensures val == NumVal && HasDigits(t) ==> ft == NumericControl(t)
    ensures val == DateVal && t.datePart != "" ==> ft == "dhxCalendar"
    ensures ft == "ocombo" <==> !SampleDecides(t, val) && t.isRef
    ensures !SampleDecides(t, val) && !t.isRef ==>
      && (t.datePart != "" ==> ft == "dhxCalendar")
      && (t.datePart == "" && HasDigits(t) ==> ft == NumericControl(t))
      && (t.datePart == "" && !HasDigits(t) && |t.types| > 0 && t.types[0] == "boolean" ==> ft == "ch")
      && (t.datePart == "" && !HasDigits(t) && !(|t.types| > 0 && t.types[0] == "boolean") && !LongString(t)
          ==> ft == "ed")
    ensures ft == "txt" <==>
      && !SampleDecides(t, val) && !t.isRef && t.datePart == "" && !HasDigits(t)
      && !(|t.types| > 0 && t.types[0] == "boolean") && LongString(t)
  {
    if val == BoolVal && "boolean" in t.types then "ch"
    else if val == NumVal && HasDigits(t) then NumericControl(t)
    else if val == DateVal && t.datePart != "" then "dhxCalendar"
    else if t.isRef then "ocombo"
    else if t.datePart != "" then "dhxCalendar"
    else if HasDigits(t) then NumericControl(t)
    else if |t.types| > 0 && t.types[0] == "boolean" then "ch"
    else if LongString(t) then "txt"
    else "ed"
  }

  /** A sample of a kind the type does not accept is ignored: the choice is
      the one made from the declared type alone. */
  lemma IgnoredSample(t: TypeDesc, val: Sample)
    requires !SampleDecides(t, val)
    ensures ControlByType(t, val) == ControlByType(t, NoSample)
  {
  }

  /** A deciding sample picks the control of its own kind, ahead of `is_ref`:
      a boolean picks the checkbox, a number the numeric editor, a date the
      calendar. */
  lemma DecidingSample(t: TypeDesc, val: Sample)
    requires SampleDecides(t, val)
    ensures val == BoolVal ==> ControlByType(t, val) == "ch"
    ensures val == NumVal ==> ControlByType(t, val) == NumericControl(t)
    ensures val == DateVal ==> ControlByType(t, val) == "dhxCalendar"
  {
  }

  /** A reference type with a boolean member and a boolean sample gets the
      checkbox, not the reference picker. */
  lemma BooleanSampleBeatsReference(t: TypeDesc)
    requires t.isRef && "boolean" in t.types
    ensures ControlByType(t, BoolVal) == "ch"
    ensures ControlByType(t, NoSample) == "ocombo"
  {
  }
}

=== FILE: ddl.dfy ===
/** Assembly of the table-creation script for every data class. The DDL of
    one class (`get_sql_struct`) is a parameter; only the order and framing of
    the statements is modelled. */
module Ddl {
  import opened Objects
  import opened MetaTypes
  import opened SchemaStore

  /** The kinds that own tables, in the order the source lists them. */
  const DdlKinds: seq<string> := ["enm", "cch", "cacc", "cat", "bp", "tsk", "doc", "ireg", "areg"]

  /** `(kind, name)` for each name of `names`, in order. */
  function Tagged(k: string, names: seq<string>): (dn: seq<(string, string)>)
    ensures |dn| == |names|
    ensures forall i :: 0 <= i < |dn| ==> dn[i] == (k, names[i])
  {
    if |names| == 0 then [] else [(k, names[0])] + Tagged(k, names[1..])
  }

  /** `data_names`: every class of every listed kind, kind by kind in the
      order of `kinds` and, within a kind, in the order `get_classes` lists
      them. A kind with no entry contributes nothing. */
  function DataNames(classes: Dict<seq<string>>, kinds: seq<string>): (dn: seq<(string, string)>)
    ensures forall p :: p in dn <==>
      p.0 in kinds && p.0 in classes.entries && p.1 in classes.entries[p.0]
  {
    if |kinds| == 0 then []
    else
      var head := if kinds[0] in classes.entries then Tagged(kinds[0], classes.entries[kinds[0]]) else [];
      assert forall p :: p in head <==> p.0 == kinds[0] && p.0 in classes.entries && p.1 in classes.entries[p.0] by {
        forall p: (string, string) | p in head ensures p.0 == kinds[0] && p.1 in classes.entries[p.0] {
          var i :| 0 <= i < |head| && head[i] == p;
        }
        forall p: (string, string) | p.0 == kinds[0] && p.0 in classes.entries && p.1 in classes.entries[p.0] ensures p in head {
          var names := classes.entries[kinds[0]];
          var i :| 0 <= i < |names| && names[i] == p.1;
          assert head[i] == p;
        }
      }
      head + DataNames(classes, kinds[1..])
  }

  /** The classes of a single kind, in the order `get_classes` lists them. */
  lemma DataNamesSingle(classes: Dict<seq<string>>, k: string)
    ensures DataNames(classes, [k]) == if k in classes.entries then Tagged(k, classes.entries[k]) else []
  {
    assert [k][1..] == [];
  }

  /** Collection goes kind by kind in the order of `kinds`: the classes of a
      concatenation of kind lists are those of the first list, then those of
      the second. */
  lemma {:induction false} DataNamesAppend(classes: Dict<seq<string>>, a: seq<string>, b: seq<string>)
    ensures DataNames(classes, a + b) == DataNames(classes, a) + DataNames(classes, b)
  {
    if |a| == 0 {
      assert a + b == b;
    } else {
      assert (a + b)[0] == a[0];
      assert (a + b)[1..] == a[1..] + b;
      DataNamesAppend(classes, a[1..], b);
    }
  }

  /** `reverse` of a sequence. */
  function Reverse<T>(s: seq<T>): (r: seq<T>)
    ensures |r| == |s|
    ensures forall i :: 0 <= i < |s| ==> r[i] == s[|s| - 1 - i]
  {
    if |s| == 0 then [] else Reverse(s[1..]) + [s[0]]
  }

  /** One statement of the script: the class's DDL and a terminator. */
  function Statement(p: (string, string), sqlStruct: (string, string) -> string): string {
    sqlStruct(p.0, p.1) + "; "
  }

  /** The statements of `dn`, in the order given. */
  function Script(dn: seq<(string, string)>, sqlStruct: (string, string) -> string): string {
    if |dn| == 0 then "" else Statement(dn[0], sqlStruct) + Script(dn[1..], sqlStruct)
  }

  /** A script of a concatenation is the concatenation of the scripts. */
  lemma {:induction false} ScriptAppend(a: seq<(string, string)>, b: seq<(string, string)>,
                                        sqlStruct: (string, string) -> string)
    ensures Script(a + b, sqlStruct) == Script(a, sqlStruct) + Script(b, sqlStruct)
  {
    if |a| == 0 {
      assert a + b == b;
    } else {
      assert (a + b)[0] == a[0];
      assert (a + b)[1..] == a[1..] + b;
      ScriptAppend(a[1..], b, sqlStruct);
    }
  }

  /** The script prefix: none for PostgreSQL, a database switch otherwise. */
  function Preamble(pg: bool): string {
    if pg then "" else "USE md; "
  }

  /** The loop of `create_tables`: starting from `preamble`, appends the
      statements of `dn` from the last to the first. */
  method Assemble(dn: seq<(string, string)>, preamble: string, sqlStruct: (string, string) -> string)
    returns (script: string)
    ensures script == preamble + Script(Reverse(dn), sqlStruct)
  {
    script := preamble;
    var cstep := |dn|;
    while cstep > 0
      invariant 0 <= cstep <= |dn|
      invariant script == preamble + Script(Reverse(dn[cstep..]), sqlStruct)
    {
      var data := dn[cstep - 1];
      assert dn[cstep - 1..][1..] == dn[cstep..];
      assert Reverse(dn[cstep - 1..]) == Reverse(dn[cstep..]) + [data];
      ScriptAppend(Reverse(dn[cstep..]), [data], sqlStruct);
      script := script + Statement(data, sqlStruct);
      cstep := cstep - 1;
    }
    assert dn[0..] == dn;
  }

  /** `create_tables(callback, attr)`, the assembled string handed to the
      callback. The source indexes `data_names[cstep - 1]` once before it
      tests the count, so at least one class is needed. */
  method CreateTables(m: Meta, pg: bool, sqlStruct: (string, string) -> string) returns (script: string)
    requires |DataNames(GetClasses(m), DdlKinds)| >= 1
    ensures script == Preamble(pg) + Script(Reverse(DataNames(GetClasses(m), DdlKinds)), sqlStruct)
  {
    var dn := DataNames(GetClasses(m), DdlKinds);
    script := Assemble(dn, Preamble(pg), sqlStruct);
  }

  /** The last collected class is scripted first, then the others in reverse. */
  lemma {:induction false} LastFirst(dn: seq<(string, string)>, sqlStruct: (string, string) -> string)
    requires |dn| >= 1
    ensures Script(Reverse(dn), sqlStruct) ==
      Statement(dn[|dn| - 1], sqlStruct) + Script(Reverse(dn[..|dn| - 1]), sqlStruct)
  {
    var r := Reverse(dn);
    assert r[1..] == Reverse(dn[..|dn| - 1]);
  }

  /** A class is scripted exactly when its kind is one of the nine table kinds
      and `get_classes` lists it. */
  lemma ScriptedClasses(m: Meta, k: string, n: string)
    ensures (k, n) in DataNames(GetClasses(m), DdlKinds) <==>
      k in DdlKinds && k in m.kinds.entries && n in m.kinds.entries[k].keys
  {
  }
}

=== FILE: meta_types.dfy ===
/** The metadata document and its descriptors. A field's type is data: a list
    of type names (primitive tags or class paths such as `cat.nom`) plus
    optional length, precision and date hints. */
module MetaTypes {
  import opened Wrappers
  import opened Objects
  import Naming

  /** Identity of an object manager (`$p.cat.nom` and the like). */
  type MgrId = nat

  /** An opaque list of printing plates attached to a document class. */
  type Plates = seq<string>

  /** A field's type descriptor (`mf.type`). Optional members are the keys the
      source tests with `hasOwnProperty`; `datePart` is `""` when absent, the
      only uses being truthiness and equality. `mgr` is the memo slot `_mgr`. */
  datatype TypeDesc = TypeDesc(
    isRef: bool,
    types: seq<string>,
    strLen: Option<int>,
    datePart: string,
    digits: Option<int>,
    fractionFigits: Option<int>,
    mgr: Option<MgrId>)

  /** A field descriptor. */
  datatype FieldDesc = FieldDesc(
    synonym: string,
    note: string,
    tooltip: string,
    multilineMode: bool,
    hide: bool,
    fieldType: TypeDesc)

  /** A tabular section: its own field descriptors. */
  datatype TabularSection = TabularSection(fields: Dict<FieldDesc>)

  /** The `obj` part of a custom form: the tabular sections it lays out. */
  datatype FormObj = FormObj(tabularSections: set<string>)

  /** A custom form block; `obj` may be missing. */
  datatype Form = Form(obj: Option<FormObj>)

  /** A class descriptor. */
  datatype ClassDesc = ClassDesc(
    fields: Dict<FieldDesc>,
    tabularSections: Dict<TabularSection>,
    form: Option<Form>,
    printingPlates: Option<Plates>)

  /** The metadata document `_m`: kind → class name → class descriptor, plus
      the overflow naming tables. */
  datatype Meta = Meta(kinds: Dict<Dict<ClassDesc>>, syns: Naming.Synonyms)

  /** The type every synthesised field starts from: a one-member `string` type. */
  const PlainString: TypeDesc := TypeDesc(false, ["string"], None, "", None, None, None)
}

=== FILE: naming.dfy ===
/** Translation between the platform's internal snake_case names and the
    names used by the external 1C system, for field names and for the kind
    prefix of a class path. */
module Naming {
  import opened Strings

  /** The document's overflow naming tables `syns_js` and `syns_1с`: parallel
      arrays, the same position holding the internal and the external name. */
  datatype Synonyms = Synonyms(js: seq<string>, oneC: seq<string>)

  /** Built-in external → internal names, consulted before the overflow tables. */
  const BuiltinToInternal: map<string, string> := map[
    "DeletionMark" := "_deleted",
    "Description" := "name",
    "DataVersion" := "data_version",
    "IsFolder" := "is_folder",
    "Number" := "number_doc",
    "Date" := "date",
    "Дата" := "date",
    "Posted" := "posted",
    "Code" := "id",
    "Parent_Key" := "parent",
    "Owner_Key" := "owner",
    "Owner" := "owner",
    "Ref_Key" := "ref",
    "Ссылка" := "ref",
    "LineNumber" := "row"
  ]

  /** Built-in internal → external names. */
  const BuiltinToExternal: map<string, string> := map[
    "_deleted" := "DeletionMark",
    "name" := "Description",
    "is_folder" := "IsFolder",
    "number_doc" := "Number",
    "date" := "Date",
    "posted" := "Posted",
    "id" := "Code",
    "ref" := "Ref_Key",
    "parent" := "Parent_Key",
    "owner" := "Owner_Key",
    "row" := "LineNumber"
  ]

  /** `a[i] || v` where `a[i]` may lie outside the array (`undefined`) or be
      the empty string: both are falsy and give the fallback. */
  function AtOr(a: seq<string>, i: int, v: string): (r: string)
    ensures 0 <= i < |a| && a[i] != "" ==> r == a[i]
    ensures !(0 <= i < |a| && a[i] != "") ==> r == v
  {
    if 0 <= i < |a| && a[i] != "" then a[i] else v
  }

  /** `syns_js`: the internal name of the external name `v`. */
  function SynsJs(t: Synonyms, v: string): (r: string)
    ensures v in BuiltinToInternal ==> r == BuiltinToInternal[v]
    ensures v !in BuiltinToInternal && v !in t.oneC ==> r == v
    ensures v !in BuiltinToInternal && r != v ==>
      var i := IndexOf(t.oneC, v); 0 <= i < |t.js| && t.js[i] == r && t.oneC[i] == v && r != ""
    ensures v !in BuiltinToInternal ==>
      var i := IndexOf(t.oneC, v); 0 <= i < |t.js| && t.js[i] != "" ==> r == t.js[i]
  {
    if v in BuiltinToInternal then BuiltinToInternal[v]
    else AtOr(t.js, IndexOf(t.oneC, v), v)
  }

  /** `syns_1с`: the external name of the internal name `v`. */
  function Syns1c(t: Synonyms, v: string): (r: string)
    ensures v in BuiltinToExternal ==> r == BuiltinToExternal[v]
    ensures v !in BuiltinToExternal && v !in t.js ==> r == v
    ensures v !in BuiltinToExternal && r != v ==>
      var i := IndexOf(t.js, v); 0 <= i < |t.oneC| && t.oneC[i] == r && t.js[i] == v && r != ""
    ensures v !in BuiltinToExternal ==>
      var i := IndexOf(t.js, v); 0 <= i < |t.oneC| && t.oneC[i] != "" ==> r == t.oneC[i]
  {
    if v in BuiltinToExternal then BuiltinToExternal[v]
    else AtOr(t.oneC, IndexOf(t.js, v), v)
  }

  /** Every built-in internal name survives the trip out and back, whatever
      the overflow tables hold. */
  lemma BuiltinRoundTrip(t: Synonyms, x: string)
    requires x in BuiltinToExternal
    ensures SynsJs(t, Syns1c(t, x)) == x
  {
  }

  /** No built-in internal name or its external counterpart contains a dot. */
  lemma BuiltinNamesDotFree()
    ensures forall x :: x in BuiltinToExternal ==> '.' !in x && '.' !in BuiltinToExternal[x]
  {
    InternalNamesDotFree();
    ExternalNamesDotFree();
  }

  lemma InternalNamesDotFree()
    ensures '.' !in "_deleted" && '.' !in "name" && '.' !in "is_folder" && '.' !in "number_doc"
    ensures '.' !in "date" && '.' !in "posted" && '.' !in "id" && '.' !in "ref"
    ensures '.' !in "parent" && '.' !in "owner" && '.' !in "row"
  {
  }

  lemma ExternalNamesDotFree()
    ensures '.' !in "DeletionMark" && '.' !in "Description" && '.' !in "IsFolder" && '.' !in "Number"
    ensures '.' !in "Date" && '.' !in "Posted" && '.' !in "Code" && '.' !in "Ref_Key"
    ensures '.' !in "Parent_Key" && '.' !in "Owner_Key" && '.' !in "LineNumber"
  {
  }

  /** The built-in external table is many-to-one, so the reverse trip
      canonicalises: `Owner` comes back as `Owner_Key`. */
  lemma BuiltinNotInjective(t: Synonyms)
    ensures Syns1c(t, SynsJs(t, "Owner")) == "Owner_Key"
    ensures Syns1c(t, SynsJs(t, "Ссылка")) == "Ref_Key"
  {
  }

  /** The overflow tables are in lock-step: equally long, free of repeats and
      of empty names, and disjoint from the built-in tables. */
  predicate LockStep(t: Synonyms) {
    && |t.js| == |t.oneC|
    && Distinct(t.js) && Distinct(t.oneC)
    && (forall i :: 0 <= i < |t.js| ==> t.js[i] != "" && t.js[i] !in BuiltinToExternal)
    && (forall i :: 0 <= i < |t.oneC| ==> t.oneC[i] != "" && t.oneC[i] !in BuiltinToInternal)
  }

  /** Lock-step overflow tables translate each same-position pair both ways. */
  lemma OverflowRoundTrip(t: Synonyms, i: int)
    requires LockStep(t) && 0 <= i < |t.js|
    ensures Syns1c(t, t.js[i]) == t.oneC[i]
    ensures SynsJs(t, t.oneC[i]) == t.js[i]
    ensures SynsJs(t, Syns1c(t, t.js[i])) == t.js[i]
    ensures Syns1c(t, SynsJs(t, t.oneC[i])) == t.oneC[i]
  {
    IndexOfDistinct(t.js, i);
    IndexOfDistinct(t.oneC, i);
  }

  /** External kind words (`Справочник`, ...) → internal kind prefixes. */
  const KindFrom1c: map<string, string> := map[
    "Перечисление" := "enm",
    "Справочник" := "cat",
    "Документ" := "doc",
    "РегистрСведений" := "ireg",
    "РегистрНакопления" := "areg",
    "РегистрБухгалтерии" := "accreg",
    "ПланВидовХарактеристик" := "cch",
    "ПланСчетов" := "cacc",
    "Обработка" := "dp",
    "Отчет" := "rep"
  ]

  /** Internal kind prefixes → external kind words. */
  const KindTo1c: map<string, string> := map[
    "enm" := "Перечисление",
    "cat" := "Справочник",
    "doc" := "Документ",
    "ireg" := "РегистрСведений",
    "areg" := "РегистрНакопления",
    "accreg" := "РегистрБухгалтерии",
    "cch" := "ПланВидовХарактеристик",
    "cacc" := "ПланСчетов",
    "dp" := "Обработка",
    "rep" := "Отчет"
  ]

  /** No external kind word contains a dot. */
  lemma KindWordsDotFree()
    ensures forall w :: w in KindFrom1c ==> '.' !in w
  {
    CatalogWordsDotFree();
    RegisterWordsDotFree();
  }

  lemma CatalogWordsDotFree()
    ensures '.' !in "Перечисление" && '.' !in "Справочник" && '.' !in "Документ"
    ensures '.' !in "Обработка" && '.' !in "Отчет"
  {
  }

  lemma RegisterWordsDotFree()
    ensures '.' !in "РегистрСведений" && '.' !in "РегистрНакопления" && '.' !in "РегистрБухгалтерии"
    ensures '.' !in "ПланВидовХарактеристик" && '.' !in "ПланСчетов"
  {
  }

  /** No internal kind prefix contains a dot. */
  lemma KindPrefixesDotFree()
    ensures forall p :: p in KindTo1c ==> '.' !in p
  {
  }

  /** The two kind tables are mutually inverse over all ten kinds. */
  lemma KindTablesInverse()
    ensures forall p :: p in KindTo1c ==> KindTo1c[p] in KindFrom1c && KindFrom1c[KindTo1c[p]] == p
    ensures forall w :: w in KindFrom1c ==> KindFrom1c[w] in KindTo1c && KindTo1c[KindFrom1c[w]] == w
  {
  }

  /** `class_name_from_1c`: an external full name to a class path. */
  function ClassNameFrom1c(t: Synonyms, name: string): (r: string)
    ensures '.' !in name ==> r == "enm." + name
  {
    var pn := Split(name, '.');
    if |pn| == 1 then "enm." + name
    else (if pn[0] in KindFrom1c then KindFrom1c[pn[0]] + "." else name) + SynsJs(t, pn[1])
  }

  /** `class_name_to_1c`: a class path to an external full name. */
  function ClassNameTo1c(t: Synonyms, name: string): (r: string)
    ensures '.' !in name ==> r == "Перечисление." + name
  {
    var pn := Split(name, '.');
    if |pn| == 1 then "Перечисление." + name
    else (if pn[0] in KindTo1c then KindTo1c[pn[0]] + "." else name) + Syns1c(t, pn[1])
  }

  /** A known external kind word is replaced by its prefix and the name is
      translated to its internal form. */
  lemma FromKnownKind(t: Synonyms, w: string, n: string)
    requires w in KindFrom1c && '.' !in n
    ensures ClassNameFrom1c(t, w + "." + n) == KindFrom1c[w] + "." + SynsJs(t, n)
  {
    KindWordsDotFree();
    SplitPath(w, n);
  }

  /** A known kind prefix is replaced by its external word and the name is
      translated to its external form. */
  lemma ToKnownKind(t: Synonyms, k: string, n: string)
    requires k in KindTo1c && '.' !in n
    ensures ClassNameTo1c(t, k + "." + n) == KindTo1c[k] + "." + Syns1c(t, n)
  {
    KindPrefixesDotFree();
    SplitPath(k, n);
  }

  /** An unknown first segment is not dropped: the whole input is kept and
      the translated second segment is appended after it. */
  lemma FromUnknownKind(t: Synonyms, a: string, n: string)
    requires a !in KindFrom1c && '.' !in a && '.' !in n
    ensures ClassNameFrom1c(t, a + "." + n) == a + "." + n + SynsJs(t, n)
  {
    SplitPath(a, n);
  }

  /** The mirror of `FromUnknownKind`: an unknown prefix keeps the whole
      input and the translated name is appended after it. */
  lemma ToUnknownKind(t: Synonyms, a: string, n: string)
    requires a !in KindTo1c && '.' !in a && '.' !in n
    ensures ClassNameTo1c(t, a + "." + n) == a + "." + n + Syns1c(t, n)
  {
    SplitPath(a, n);
  }

  /** Business processes and tasks have no external kind word, so their
      class paths come out as the path followed by the translated name. */
  lemma ProcessKindsUntranslated(t: Synonyms, n: string)
    requires '.' !in n
    ensures ClassNameTo1c(t, "bp" + "." + n) == "bp" + "." + n + Syns1c(t, n)
    ensures ClassNameTo1c(t, "tsk" + "." + n) == "tsk" + "." + n + Syns1c(t, n)
  {
    ProcessKindsUnlisted();
    ToUnknownKind(t, "bp", n);
    ToUnknownKind(t, "tsk", n);
  }

  /** Neither `bp` nor `tsk` is a kind prefix of the external table. */
  lemma ProcessKindsUnlisted()
    ensures "bp" !in KindTo1c && "tsk" !in KindTo1c
    ensures '.' !in "bp" && '.' !in "tsk"
  {
    assert KindTo1c.Keys == {"enm", "cat", "doc", "ireg", "areg", "accreg", "cch", "cacc", "dp", "rep"};
  }

  /** Class path → external → class path is the identity whenever the name's
      external form has no dot and translates back to the name. */
  lemma ClassNameRoundTrip(t: Synonyms, k: string, n: string)
    requires k in KindTo1c && '.' !in n
    requires '.' !in Syns1c(t, n) && SynsJs(t, Syns1c(t, n)) == n
    ensures ClassNameFrom1c(t, ClassNameTo1c(t, k + "." + n)) == k + "." + n
  {
    KindTablesInverse();
    ToKnownKind(t, k, n);
    FromKnownKind(t, KindTo1c[k], Syns1c(t, n));
  }

  /** External → class path → external is the identity under the symmetric
      condition on the name. */
  lemma ExternalNameRoundTrip(t: Synonyms, w: string, n: string)
    requires w in KindFrom1c && '.' !in n
    requires '.' !in SynsJs(t, n) && Syns1c(t, SynsJs(t, n)) == n
    ensures ClassNameTo1c(t, ClassNameFrom1c(t, w + "." + n)) == w + "." + n
  {
    KindTablesInverse();
    FromKnownKind(t, w, n);
    ToKnownKind(t, KindFrom1c[w], SynsJs(t, n));
  }

  /** For every built-in name the class path round trip holds unconditionally. */
  lemma BuiltinClassNameRoundTrip(t: Synonyms, k: string, x: string)
    requires k in KindTo1c && x in BuiltinToExternal
    ensures ClassNameFrom1c(t, ClassNameTo1c(t, k + "." + x)) == k + "." + x
  {
    BuiltinNamesDotFree();
    BuiltinRoundTrip(t, x);
    ClassNameRoundTrip(t, k, x);
  }
}

=== FILE: objects.dfy ===
/** JavaScript objects used as string-keyed dictionaries, with the key order
    a `for..in` loop visits. */
module Objects {
  import opened Wrappers

  /** An object: `keys` is the enumeration order, `entries` the properties. */
  datatype Dict<V> = Dict(keys: seq<string>, entries: map<string, V>) {

    /** What every real object satisfies: each property is enumerated exactly once. */
    predicate WellFormed() {
      && (forall i, j :: 0 <= i < j < |keys| ==> keys[i] != keys[j])
      && (forall k :: k in keys ==> k in entries)
      && (forall k :: k in entries ==> k in keys)
    }

    /** `obj[k]`, `undefined` reading as `None`. */
    function Get(k: string): (r: Option<V>)
      ensures r.Some? <==> k in entries
      ensures r.Some? ==> r.value == entries[k]
    {
      if k in entries then Some(entries[k]) else None
    }
  }
}

=== FILE: resolver.dfy ===
/** Resolution of a field's value to the object manager(s) that may hold it,
    with the single-manager memo slot `_mgr` on the type descriptor. */
module Resolver {
  import opened Wrappers
  import opened Strings
  import opened MetaTypes

  /** The manager registry `$p`: kind → class name → manager. */
  type Registry = map<string, map<string, MgrId>>

  /** `$p.utils.blank.guid`, the nil identifier. */
  const BlankGuid: string := "00000000-0000-0000-0000-000000000000"

  /** `mgr_by_class_name`: the manager of class path `className`, if its kind
      is registered and its name segment is non-empty. */
  function MgrByClassName(reg: Registry, className: string): (r: Option<MgrId>)
    ensures r.Some? ==> '.' in className
  {
    if className == "" then None
    else
      var np := Split(className, '.');
      if |np| > 1 && np[1] != "" && np[0] in reg then
        (if np[1] in reg[np[0]] then Some(reg[np[0]][np[1]]) else None)
      else None
  }

  /** On a two-segment class path `mgr_by_class_name` is the registry entry. */
  lemma MgrByClassPath(reg: Registry, k: string, n: string)
    requires '.' !in k && '.' !in n && n != ""
    ensures MgrByClassName(reg, k + "." + n) ==
      (if k in reg && n in reg[k] then Some(reg[k][n]) else None)
  {
    SplitPath(k, n);
  }

  /** The kind of a dotted type name is registered, so `$p[kind][name]` can
      be read (possibly as `undefined`). */
  predicate KindRegistered(reg: Registry, t: string) {
    var np := Split(t, '.');
    |np| > 1 && np[0] in reg
  }

  /** A dotted type name whose kind is missing: reading `$p[kind][name]` throws. */
  predicate KindMissing(reg: Registry, t: string) {
    var np := Split(t, '.');
    |np| > 1 && np[0] !in reg
  }

  /** `$p[kind][name]` for the first two segments of type name `t`. */
  function TypeMgr(reg: Registry, t: string): (r: Option<MgrId>)
    ensures r.Some? ==> KindRegistered(reg, t)
  {
    var np := Split(t, '.');
    if |np| > 1 && np[0] in reg && np[1] in reg[np[0]] then Some(reg[np[0]][np[1]]) else None
  }

  /** On a two-segment class path the lookup `value_mgr` performs agrees with
      `mgr_by_class_name`. */
  lemma TypeMgrByClassName(reg: Registry, k: string, n: string)
    requires '.' !in k && '.' !in n && n != ""
    ensures TypeMgr(reg, k + "." + n) == MgrByClassName(reg, k + "." + n)
    ensures TypeMgr(reg, k + "." + n).Some? <==> k in reg && n in reg[k]
  {
    SplitPath(k, n);
    MgrByClassPath(reg, k, n);
  }

  /** The managers a single type contributes: its own, if it resolves. */
  function Own(reg: Registry, t: string): (own: seq<MgrId>)
    ensures |own| <= 1
    ensures own == [] <==> TypeMgr(reg, t).None?
    ensures own != [] ==> TypeMgr(reg, t) == Some(own[0])
  {
    if TypeMgr(reg, t).Some? then [TypeMgr(reg, t).value] else []
  }

  /** The candidate list `rt`: the managers of the member types, in
      declaration order, skipping types that resolve to nothing. */
  function Candidates(reg: Registry, types: seq<string>): (rt: seq<MgrId>)
    ensures |rt| <= |types|
  {
    if |types| == 0 then [] else Own(reg, types[0]) + Candidates(reg, types[1..])
  }

  /** A manager is a candidate exactly when some member type resolves to it. */
  lemma {:induction false} CandidatesMembers(reg: Registry, types: seq<string>, m: MgrId)
    ensures m in Candidates(reg, types) <==> exists i :: 0 <= i < |types| && TypeMgr(reg, types[i]) == Some(m)
  {
    if |types| > 0 {
      var rest := Candidates(reg, types[1..]);
      CandidatesMembers(reg, types[1..], m);
      if m in rest {
        var i :| 0 <= i < |types[1..]| && TypeMgr(reg, types[1..][i]) == Some(m);
        assert TypeMgr(reg, types[i + 1]) == Some(m);
      }
      if i :| 0 <= i < |types| && TypeMgr(reg, types[i]) == Some(m) {
        if i > 0 {
          assert types[1..][i - 1] == types[i];
        }
      }
    }
  }

  /** The first candidate is the manager of the first member type that resolves. */
  lemma {:induction false} CandidatesFirst(reg: Registry, types: seq<string>)
    requires |Candidates(reg, types)| > 0
    ensures exists i :: (0 <= i < |types| && TypeMgr(reg, types[i]) == Some(Candidates(reg, types)[0])
      && forall j :: 0 <= j < i ==> TypeMgr(reg, types[j]).None?)
  {
    var rt := Candidates(reg, types);
    if TypeMgr(reg, types[0]).Some? {
      assert TypeMgr(reg, types[0]) == Some(rt[0]);
    } else {
      var rest := Candidates(reg, types[1..]);
      assert rt == rest;
      CandidatesFirst(reg, types[1..]);
      var i :| 0 <= i < |types[1..]| && TypeMgr(reg, types[1..][i]) == Some(rest[0])
        && forall j :: 0 <= j < i ==> TypeMgr(reg, types[1..][j]).None?;
      assert types[i + 1] == types[1..][i];
      forall j | 0 <= j < i + 1 ensures TypeMgr(reg, types[j]).None? {
        if j > 0 {
          assert types[j] == types[1..][j - 1];
        }
      }
    }
  }

  /** The candidates of a single type: its manager, if it resolves. */
  lemma CandidatesSingle(reg: Registry, t: string)
    ensures Candidates(reg, [t]) == Own(reg, t)
  {
    assert [t][1..] == [];
  }

  /** The candidates keep the declaration order of the member types: those
      of a concatenation are the candidates of the first part, then those of
      the second. */
  lemma {:induction false} CandidatesAppend(reg: Registry, a: seq<string>, b: seq<string>)
    ensures Candidates(reg, a + b) == Candidates(reg, a) + Candidates(reg, b)
  {
    if |a| == 0 {
      assert a + b == b;
    } else {
      assert (a + b)[0] == a[0];
      assert (a + b)[1..] == a[1..] + b;
      CandidatesAppend(reg, a[1..], b);
    }
  }

  /** The first candidate whose store holds identifier `id`; the probe is
      `mgr.get(id, false, true)`. */
  function FirstProbed(rt: seq<MgrId>, id: string, probe: (MgrId, string) -> bool): (r: Option<MgrId>)
    ensures r.None? <==> forall i :: 0 <= i < |rt| ==> !probe(rt[i], id)
    ensures r.Some? ==> exists i :: (0 <= i < |rt| && rt[i] == r.value && probe(rt[i], id)
      && forall j :: 0 <= j < i ==> !probe(rt[j], id))
  {
    if |rt| == 0 then None
    else if probe(rt[0], id) then Some(rt[0])
    else
      var r := FirstProbed(rt[1..], id, probe);
      assert forall i :: 0 < i < |rt| ==> rt[1..][i - 1] == rt[i];
      if r.Some? then
        var i :| 0 <= i < |rt[1..]| && rt[1..][i] == r.value && probe(rt[1..][i], id)
          && forall j :: 0 <= j < i ==> !probe(rt[1..][j], id);
        assert rt[i + 1] == r.value;
        r
      else r
  }

  /** A row cell: absent (`undefined`), a string (possibly a guid), a realized data
      object owned by a manager, or anything else. */
  datatype Value = Absent | Str(s: string) | DataObj(owner: MgrId) | Other

  /** A row or object: its cells, and whether `row.property || row.param` is truthy. */
  datatype Row = Row(cells: map<string, Value>, hasProperty: bool)

  /** `row[f]`. */
  function Cell(row: Row, f: string): Value {
    if f in row.cells then row.cells[f] else Absent
  }

  /** What `value_mgr` returns. `ViaProperty` stands for the characteristic
      branch (the field `value` of a row carrying a property), whose result is
      not modelled; `Thrown` for a `TypeError` while building the candidates. */
  datatype MgrResult = NoMgr | One(mgr: MgrId) | Many(mgrs: seq<MgrId>) | ViaProperty | Thrown

  /** `mf_mgr(mgr)`: returns `mgr`, storing it in the memo slot when it is
      truthy and the type has exactly one member. */
  function Memoise(mf: TypeDesc, m: Option<MgrId>): (res: (MgrResult, TypeDesc))
    ensures res.0.One? <==> m.Some?
    ensures res.0.One? ==> res.0.mgr == m.value
    ensures res.0.NoMgr? <==> m.None?
    ensures res.1 == mf.(mgr := res.1.mgr)
    ensures res.1.mgr != mf.mgr ==> m.Some? && |mf.types| == 1 && res.1.mgr == m
    ensures m.Some? && |mf.types| == 1 ==> res.1.mgr == m
  {
    match m
    case Some(x) => (One(x), if |mf.types| == 1 then mf.(mgr := m) else mf)
    case None => (NoMgr, mf)
  }

  /** `value_mgr(row, f, mf, array_enabled, v)`, reference branch. `vType` is
      `v.type` (`""` when `v` or its tag is missing); `isGuid` is
      `$p.utils.is_guid` and `probe` the managers' existence probe. Returns the
      result and the type descriptor with its memo slot after the call. */
  function ValueMgr(reg: Registry, row: Row, f: string, mf: TypeDesc, arrayEnabled: bool, vType: string,
                    isGuid: string -> bool, probe: (MgrId, string) -> bool): (res: (MgrResult, TypeDesc))
    ensures res.1 == mf.(mgr := res.1.mgr)
    ensures mf.mgr.Some? ==> res == (One(mf.mgr.value), mf)
    ensures res.1.mgr != mf.mgr ==>
      && mf.mgr.None? && |mf.types| == 1
      && res.1.mgr.Some? && res.0 == One(res.1.mgr.value)
  {
    if mf.mgr.Some? then (One(mf.mgr.value), mf)
    else if |mf.types| == 1 && KindRegistered(reg, mf.types[0]) then
      Memoise(mf, TypeMgr(reg, mf.types[0]))
    else if |mf.types| != 1 && vType != "" && KindRegistered(reg, vType) then
      Memoise(mf, TypeMgr(reg, vType))
    else if f != "value" || !row.hasProperty then
      if exists i | 0 <= i < |mf.types| :: KindMissing(reg, mf.types[i]) then (Thrown, mf)
      else
        var rt := Candidates(reg, mf.types);
        var cell := Cell(row, f);
        if |rt| == 1 || cell == Str(BlankGuid) then Memoise(mf, if |rt| > 0 then Some(rt[0]) else None)
        else if arrayEnabled then (Many(rt), mf)
        else if cell.DataObj? then (One(cell.owner), mf)
        else if cell.Str? && isGuid(cell.s) && cell.s != BlankGuid then
          match FirstProbed(rt, cell.s, probe)
          case Some(m) => (One(m), mf)
          case None => (NoMgr, mf)
        else (NoMgr, mf)
    else (ViaProperty, mf)
  }

  /** A one-member reference type resolves to the manager `mgr_by_class_name`
      names, fills the memo slot, and a second call answers from the slot with
      the same manager whatever its other arguments. */
  lemma SingleReferenceMemoised(reg: Registry, row: Row, f: string, mf: TypeDesc, arrayEnabled: bool,
                                vType: string, isGuid: string -> bool, probe: (MgrId, string) -> bool,
                                k: string, n: string,
                                row2: Row, f2: string, arrayEnabled2: bool, vType2: string)
    requires mf.mgr.None? && mf.types == [k + "." + n]
    requires '.' !in k && '.' !in n && n != "" && k in reg && n in reg[k]
    ensures var (r1, mf1) := ValueMgr(reg, row, f, mf, arrayEnabled, vType, isGuid, probe);
      && MgrByClassName(reg, k + "." + n) == Some(reg[k][n])
      && r1 == One(reg[k][n]) && mf1 == mf.(mgr := Some(reg[k][n]))
      && ValueMgr(reg, row2, f2, mf1, arrayEnabled2, vType2, isGuid, probe) == (r1, mf1)
  {
    SplitPath(k, n);
    MgrByClassPath(reg, k, n);
  }

  /** The preconditions shared by the multi-type lemmas below: no memo, no
      tagged value, not the characteristic branch, every kind registered. */
  predicate MultiTypeLookup(reg: Registry, row: Row, f: string, mf: TypeDesc, vType: string) {
    && mf.mgr.None? && |mf.types| != 1 && vType == ""
    && (f != "value" || !row.hasProperty)
    && forall i :: 0 <= i < |mf.types| ==> !KindMissing(reg, mf.types[i])
  }

  /** A multi-type field whose candidate list has one entry returns it and is
      not memoised: only a one-member type fills the slot. */
  lemma SingleCandidateNotMemoised(reg: Registry, row: Row, f: string, mf: TypeDesc, arrayEnabled: bool,
                                   isGuid: string -> bool, probe: (MgrId, string) -> bool)
    requires MultiTypeLookup(reg, row, f, mf, "")
    requires |Candidates(reg, mf.types)| == 1
    ensures ValueMgr(reg, row, f, mf, arrayEnabled, "", isGuid, probe) ==
      (One(Candidates(reg, mf.types)[0]), mf)
  {
  }

  /** With `array_enabled`, a candidate count other than one and a row value
      that is not the blank guid, all candidates are returned in declaration
      order (none at all when no member type resolves). */
  lemma AllCandidates(reg: Registry, row: Row, f: string, mf: TypeDesc,
                      isGuid: string -> bool, probe: (MgrId, string) -> bool)
    requires MultiTypeLookup(reg, row, f, mf, "")
    requires |Candidates(reg, mf.types)| != 1 && Cell(row, f) != Str(BlankGuid)
    ensures ValueMgr(reg, row, f, mf, true, "", isGuid, probe) == (Many(Candidates(reg, mf.types)), mf)
  {
  }

  /** On a multi-type field, a value tagged with a type of a registered kind
      resolves through that type alone; the slot stays empty. */
  lemma TaggedValue(reg: Registry, row: Row, f: string, mf: TypeDesc, arrayEnabled: bool, vType: string,
                    isGuid: string -> bool, probe: (MgrId, string) -> bool)
    requires mf.mgr.None? && |mf.types| != 1 && vType != "" && KindRegistered(reg, vType)
    ensures ValueMgr(reg, row, f, mf, arrayEnabled, vType, isGuid, probe) ==
      (if TypeMgr(reg, vType).Some? then One(TypeMgr(reg, vType).value) else NoMgr, mf)
  {
  }

  /** A member type whose kind is not registered makes building the
      candidates throw, whatever the row holds; the slot stays empty. */
  lemma MissingKindThrows(reg: Registry, row: Row, f: string, mf: TypeDesc, arrayEnabled: bool,
                          isGuid: string -> bool, probe: (MgrId, string) -> bool, i: int)
    requires mf.mgr.None? && |mf.types| != 1 && (f != "value" || !row.hasProperty)
    requires 0 <= i < |mf.types| && KindMissing(reg, mf.types[i])
    ensures ValueMgr(reg, row, f, mf, arrayEnabled, "", isGuid, probe) == (Thrown, mf)
  {
  }

  /** A row value equal to the blank guid returns the first candidate, even
      when there are several, and nothing when there is none. */
  lemma BlankGuidFirstCandidate(reg: Registry, row: Row, f: string, mf: TypeDesc, arrayEnabled: bool,
                                isGuid: string -> bool, probe: (MgrId, string) -> bool)
    requires MultiTypeLookup(reg, row, f, mf, "") && Cell(row, f) == Str(BlankGuid)
    ensures var rt := Candidates(reg, mf.types);
      ValueMgr(reg, row, f, mf, arrayEnabled, "", isGuid, probe) ==
        (if |rt| > 0 then One(rt[0]) else NoMgr, mf)
  {
  }

  /** Without `array_enabled` and with other than one candidate, a data
      object in the row answers with its own manager. */
  lemma DataObjOwner(reg: Registry, row: Row, f: string, mf: TypeDesc, owner: MgrId,
                     isGuid: string -> bool, probe: (MgrId, string) -> bool)
    requires MultiTypeLookup(reg, row, f, mf, "") && |Candidates(reg, mf.types)| != 1
    requires Cell(row, f) == DataObj(owner)
    ensures ValueMgr(reg, row, f, mf, false, "", isGuid, probe) == (One(owner), mf)
  {
  }

  /** Without `array_enabled`, a non-blank guid in the row picks the first
      candidate whose store holds it, and nothing when none does. */
  lemma ProbedCandidate(reg: Registry, row: Row, f: string, mf: TypeDesc, g: string,
                        isGuid: string -> bool, probe: (MgrId, string) -> bool)
    requires MultiTypeLookup(reg, row, f, mf, "")
    requires |Candidates(reg, mf.types)| != 1
    requires Cell(row, f) == Str(g) && isGuid(g) && g != BlankGuid
    ensures var (r, mf') := ValueMgr(reg, row, f, mf, false, "", isGuid, probe);
      var rt := Candidates(reg, mf.types);
      && mf' == mf
      && (r.NoMgr? <==> forall i :: 0 <= i < |rt| ==> !probe(rt[i], g))
      && (r.One? ==> exists i :: (0 <= i < |rt| && rt[i] == r.mgr && probe(rt[i], g)
                       && forall j :: 0 <= j < i ==> !probe(rt[j], g)))
      && (r.NoMgr? || r.One?)
  {
    var fp := FirstProbed(Candidates(reg, mf.types), g, probe);
    assert ValueMgr(reg, row, f, mf, false, "", isGuid, probe) ==
      (if fp.Some? then (One(fp.value), mf) else (NoMgr, mf));
  }
}

=== FILE: schema_store.dfy ===
/** Lookups in the metadata document: class and field descriptors by class
    path, the class names of every kind, and the attachment of printing
    plates to document classes. */
module SchemaStore {
  import opened Wrappers
  import opened Strings
  import opened Objects
  import opened MetaTypes

  /** `class_name.split(".")` read as `[np[0], np[1]]`; a path without a dot
      has no second segment, and `obj[undefined]` reads the key `"undefined"`. */
  function KindAndName(classPath: string): (kn: (string, string))
    ensures '.' !in kn.0
    ensures '.' !in classPath ==> kn == (classPath, "undefined")
  {
    var np := Split(classPath, '.');
    (np[0], if |np| > 1 then np[1] else "undefined")
  }

  /** `KindAndName` recovers the two segments of a two-segment path. */
  lemma KindAndNameOfPath(k: string, n: string)
    requires '.' !in k && '.' !in n
    ensures KindAndName(k + "." + n) == (k, n)
  {
    SplitPath(k, n);
  }

  /** `_m[kind][name]`: reading into a missing kind throws. */
  function GetClass(m: Meta, classPath: string): (r: JsResult<ClassDesc>)
    ensures r.TypeError? <==> KindAndName(classPath).0 !in m.kinds.entries
    ensures r.Defined? ==> var (k, n) := KindAndName(classPath);
      n in m.kinds.entries[k].entries && r.value == m.kinds.entries[k].entries[n]
  {
    var (k, n) := KindAndName(classPath);
    if k !in m.kinds.entries then TypeError
    else JsResult.OfOption(m.kinds.entries[k].Get(n))
  }

  /** Kinds with document semantics: `"doc,tsk,bp".indexOf(kind) != -1`. */
  predicate IsDocKind(kind: string) {
    Contains("doc,tsk,bp", kind)
  }

  /** Kinds with catalog semantics: `"cat,cch,cacc,tsk".indexOf(kind) != -1`. */
  predicate IsCatKind(kind: string) {
    Contains("cat,cch,cacc,tsk", kind)
  }

  /** The kind tests are substring tests: `tsk` is both document-like and
      catalog-like. */
  lemma TaskKindIsBoth()
    ensures IsDocKind("tsk") && IsCatKind("tsk")
  {
    assert OccursAt("doc,tsk,bp", "tsk", 4);
    assert OccursAt("cat,cch,cacc,tsk", "tsk", 13);
  }

  /** `doc` and `bp` are only document-like. */
  lemma DocumentKinds()
    ensures IsDocKind("doc") && !IsCatKind("doc")
    ensures IsDocKind("bp") && !IsCatKind("bp")
  {
    assert OccursAt("doc,tsk,bp", "doc", 0);
    assert OccursAt("doc,tsk,bp", "bp", 8);
    MissingChar("cat,cch,cacc,tsk", "doc", 1);
    MissingChar("cat,cch,cacc,tsk", "bp", 0);
  }

  /** `cat`, `cch` and `cacc` are only catalog-like. */
  lemma CatalogKinds()
    ensures IsCatKind("cat") && !IsDocKind("cat")
    ensures IsCatKind("cch") && !IsDocKind("cch")
    ensures IsCatKind("cacc") && !IsDocKind("cacc")
  {
    assert OccursAt("cat,cch,cacc,tsk", "cat", 0);
    assert OccursAt("cat,cch,cacc,tsk", "cch", 4);
    assert OccursAt("cat,cch,cacc,tsk", "cacc", 8);
    MissingChar("doc,tsk,bp", "cat", 1);
    MissingChar("doc,tsk,bp", "cch", 2);
    MissingChar("doc,tsk,bp", "cacc", 1);
  }

  /** Enumerations and registers are neither. */
  lemma PlainKinds()
    ensures !IsDocKind("enm") && !IsCatKind("enm")
    ensures !IsDocKind("ireg") && !IsCatKind("ireg")
    ensures !IsDocKind("areg") && !IsCatKind("areg")
  {
    MissingChar("doc,tsk,bp", "enm", 0);
    MissingChar("cat,cch,cacc,tsk", "enm", 0);
    MissingChar("doc,tsk,bp", "ireg", 0);
    MissingChar("cat,cch,cacc,tsk", "ireg", 0);
    MissingChar("doc,tsk,bp", "areg", 1);
    MissingChar("cat,cch,cacc,tsk", "areg", 1);
  }

  /** A synthesised field: empty note and tooltip unless given, not multi-line. */
  function Synthesised(synonym: string, tooltip: string, t: TypeDesc): FieldDesc {
    FieldDesc(synonym, "", tooltip, false, false, t)
  }

  /** The built-in fields, synthesised from the class path alone; `None` for
      any other field name. */
  function Builtin(classPath: string, fieldName: string): (r: Option<FieldDesc>)
    ensures r.Some? ==> |r.value.fieldType.types| == 1
    ensures fieldName == "ref" ==> r.Some? && r.value.fieldType.isRef && r.value.fieldType.types == [classPath]
    ensures r.Some? && fieldName != "ref" ==> !r.value.fieldType.isRef
    ensures fieldName in {"number_doc", "date", "posted"} ==> (r.Some? <==> IsDocKind(KindAndName(classPath).0))
    ensures fieldName in {"id", "name"} ==> (r.Some? <==> IsCatKind(KindAndName(classPath).0))
    ensures fieldName in {"_deleted", "is_folder", "ref"} ==> r.Some?
    ensures r.Some? && fieldName in {"posted", "_deleted", "is_folder"} ==> r.value.fieldType.types == ["boolean"]
    ensures r.Some? && fieldName in {"number_doc", "id", "name"} ==> r.value.fieldType.types == ["string"]
  {
    var kind := KindAndName(classPath).0;
    var isDoc := IsDocKind(kind);
    var isCat := IsCatKind(kind);
    if isDoc && fieldName == "number_doc" then
      Some(Synthesised("Номер", "Номер документа", PlainString.(strLen := Some(11))))
    else if isDoc && fieldName == "date" then
      Some(Synthesised("Дата", "Дата документа", PlainString.(datePart := "date_time", types := ["date"])))
    else if isDoc && fieldName == "posted" then
      Some(Synthesised("Проведен", "", PlainString.(types := ["boolean"])))
    else if isCat && fieldName == "id" then
      Some(Synthesised("Код", "", PlainString))
    else if isCat && fieldName == "name" then
      Some(Synthesised("Наименование", "", PlainString))
    else if fieldName == "_deleted" then
      Some(Synthesised("Пометка удаления", "", PlainString.(types := ["boolean"])))
    else if fieldName == "is_folder" then
      Some(Synthesised("Это группа", "", PlainString.(types := ["boolean"])))
    else if fieldName == "ref" then
      Some(Synthesised("Ссылка", "", PlainString.(isRef := true, types := [classPath])))
    else None
  }

  /** The names `Builtin` synthesises on some kind. */
  const BuiltinNames: set<string> :=
    {"number_doc", "date", "posted", "id", "name", "_deleted", "is_folder", "ref"}

  /** Only the eight built-in names are ever synthesised; the kind-independent
      ones always are. */
  lemma BuiltinNamesOnly(classPath: string, fieldName: string)
    ensures Builtin(classPath, fieldName).Some? ==> fieldName in BuiltinNames
    ensures fieldName in {"_deleted", "is_folder", "ref"} ==> Builtin(classPath, fieldName).Some?
  {
  }

  /** On document-like kinds `number_doc` is an 11-character string and `date`
      a date-time. */
  lemma DocumentBuiltins(k: string, n: string)
    requires '.' !in k && '.' !in n && IsDocKind(k)
    ensures var nd := Builtin(k + "." + n, "number_doc");
      nd.Some? && nd.value.fieldType.strLen == Some(11) && nd.value.fieldType.types == ["string"]
    ensures var d := Builtin(k + "." + n, "date");
      d.Some? && d.value.fieldType.datePart == "date_time" && d.value.fieldType.types == ["date"]
  {
    KindAndNameOfPath(k, n);
  }

  /** What `get` returns: a class or a field descriptor. */
  datatype Descriptor = ClassDescriptor(cls: ClassDesc) | FieldDescriptor(field: FieldDesc)

  /** `get(class_name, field_name)`: the class descriptor when no field name is
      given (`""`), else a built-in or the class's own field descriptor. */
  function Get(m: Meta, classPath: string, fieldName: string): (r: JsResult<Descriptor>)
    ensures fieldName == "" ==> (r.Defined? <==> GetClass(m, classPath).Defined?)
    ensures fieldName == "" ==> (r.TypeError? <==> GetClass(m, classPath).TypeError?)
    ensures fieldName == "" && r.Defined? ==> r.value == ClassDescriptor(GetClass(m, classPath).value)
    ensures fieldName != "" && Builtin(classPath, fieldName).Some? ==>
      r == Defined(FieldDescriptor(Builtin(classPath, fieldName).value))
    ensures fieldName != "" && Builtin(classPath, fieldName).None? && GetClass(m, classPath).Defined? ==>
      var c := GetClass(m, classPath).value;
      (r.Defined? <==> fieldName in c.fields.entries) &&
      (r.Defined? ==> r.value == FieldDescriptor(c.fields.entries[fieldName]))
    ensures fieldName != "" && Builtin(classPath, fieldName).None? && !GetClass(m, classPath).Defined? ==>
      r.TypeError?
    ensures r.Defined? && fieldName != "" ==> r.value.FieldDescriptor?
  {
    if fieldName == "" then
      match GetClass(m, classPath)
      case Defined(c) => Defined(ClassDescriptor(c))
      case Undefined => Undefined
      case TypeError => TypeError
    else
      match Builtin(classPath, fieldName)
      case Some(fd) => Defined(FieldDescriptor(fd))
      case None =>
        match GetClass(m, classPath)
        case Defined(c) =>
          (match c.fields.Get(fieldName)
           case Some(fd) => Defined(FieldDescriptor(fd))
           case None => Undefined)
        case _ => TypeError
  }

  /** `get_classes`: for every kind, its class names in enumeration order. */
  function GetClasses(m: Meta): (r: Dict<seq<string>>)
    ensures r.keys == m.kinds.keys && r.entries.Keys == m.kinds.entries.Keys
    ensures forall k, n :: k in r.entries && m.kinds.entries[k].WellFormed() ==>
      (n in r.entries[k] <==> n in m.kinds.entries[k].entries)
    ensures forall k :: k in r.entries && m.kinds.entries[k].WellFormed() ==> Distinct(r.entries[k])
  {
    Dict(m.kinds.keys, map k | k in m.kinds.entries :: m.kinds.entries[k].keys)
  }

  /** `get_classes` lists a kind's classes in the order `for..in` visits them:
      of two listed names, the earlier one is enumerated first. */
  lemma {:induction false} ClassesInEnumerationOrder(m: Meta, k: string, i: int, j: int)
    requires k in m.kinds.entries && m.kinds.entries[k].WellFormed()
    requires 0 <= i < j < |GetClasses(m).entries[k]|
    ensures var names, order := GetClasses(m).entries[k], m.kinds.entries[k].keys;
      IndexOf(order, names[i]) < IndexOf(order, names[j])
  {
    var order := m.kinds.entries[k].keys;
    IndexOfDistinct(order, i);
    IndexOfDistinct(order, j);
  }

  /** Every class `get_classes` lists is found by `get`, provided neither its
      kind nor its name contains a dot. */
  lemma ListedClassesResolve(m: Meta, k: string, i: int)
    requires m.kinds.WellFormed() && k in m.kinds.entries && m.kinds.entries[k].WellFormed()
    requires 0 <= i < |GetClasses(m).entries[k]|
    requires '.' !in k && '.' !in GetClasses(m).entries[k][i]
    ensures var n := GetClasses(m).entries[k][i];
      GetClass(m, k + "." + n) == Defined(m.kinds.entries[k].entries[n])
  {
    var n := GetClasses(m).entries[k][i];
    KindAndNameOfPath(k, n);
    assert n in m.kinds.entries[k].keys;
  }

  /** The printing-plate catalog may mention only existing document classes:
      the source assigns into `_m.doc[i]` unchecked. */
  predicate PlatesApplicable(m: Meta, pp: Option<map<string, Plates>>) {
    pp.Some? ==>
      forall n :: n in pp.value ==> "doc" in m.kinds.entries && n in m.kinds.entries["doc"].entries
  }

  /** `printing_plates(pp)`: stores each listed document class's plates on its
      descriptor. `pp` is `None` when the catalog or its `doc` part is missing. */
  function PrintingPlates(m: Meta, pp: Option<map<string, Plates>>): (m': Meta)
    requires PlatesApplicable(m, pp)
    ensures m'.syns == m.syns && m'.kinds.keys == m.kinds.keys
    ensures m'.kinds.entries.Keys == m.kinds.entries.Keys
    ensures forall k :: k in m.kinds.entries && k != "doc" ==> m'.kinds.entries[k] == m.kinds.entries[k]
    ensures "doc" in m.kinds.entries ==>
      var docs, docs' := m.kinds.entries["doc"], m'.kinds.entries["doc"];
      && docs'.keys == docs.keys && docs'.entries.Keys == docs.entries.Keys
      && forall n :: n in docs.entries ==>
           docs'.entries[n] == docs.entries[n].(printingPlates := docs'.entries[n].printingPlates)
           && docs'.entries[n].printingPlates ==
                (if pp.Some? && n in pp.value then Some(pp.value[n]) else docs.entries[n].printingPlates)
    ensures pp.None? ==> m' == m
  {
    if pp.None? || "doc" !in m.kinds.entries then m
    else
      var docs := m.kinds.entries["doc"];
      var plates := pp.value;
      var docs' := docs.(entries := map n | n in docs.entries ::
        if n in plates then docs.entries[n].(printingPlates := Some(plates[n])) else docs.entries[n]);
      m.(kinds := m.kinds.(entries := m.kinds.entries["doc" := docs']))
  }

  /** Attaching the same catalog twice changes nothing the second time. */
  lemma PrintingPlatesIdempotent(m: Meta, pp: Option<map<string, Plates>>)
    requires PlatesApplicable(m, pp)
    ensures PlatesApplicable(PrintingPlates(m, pp), pp)
    ensures PrintingPlates(PrintingPlates(m, pp), pp) == PrintingPlates(m, pp)
  {
    var m1 := PrintingPlates(m, pp);
    var m2 := PrintingPlates(m1, pp);
    if pp.Some? && "doc" in m.kinds.entries {
      assert m2.kinds.entries["doc"].entries == m1.kinds.entries["doc"].entries;
      assert m2.kinds.entries == m1.kinds.entries;
    }
  }
}

=== FILE: sql_mapper.dfy ===
/** Column types for a field, in two SQL dialects: the legacy in-browser one
    (`pg` false) and PostgreSQL (`pg` true); and the `_T` discriminator column
    that records which member type a multi-type field currently holds. */
module SqlMapper {
  import opened Wrappers
  import opened Strings
  import opened Objects
  import opened MetaTypes

  /** The two (table, field) pairs that are JSON columns whatever their type. */
  predicate IsJsonColumn(tableName: string, f: string) {
    || (f == "type" && tableName == "cch_properties")
    || (f == "svg" && tableName == "cat_production_params")
  }

  /** A type that stores an object reference: `is_ref` or a `guid` member. */
  predicate IsRefLike(mf: TypeDesc) {
    mf.isRef || "guid" in mf.types
  }

  /** Every member type is an enumeration (vacuously true for no members). */
  predicate AllEnumerations(types: seq<string>) {
    forall i :: 0 <= i < |types| ==> StartsWith(types[i], "enm.")
  }

  function Max(a: int, b: int): int {
    if a < b then b else a
  }

  /** A PostgreSQL `character varying(n)` column. */
  function Varchar(n: int): string {
    " character varying(" + IntToString(n) + ")"
  }

  /** `"" + mf.fraction_figits` when the key may be missing. */
  function FractionText(ff: Option<int>): string {
    match ff
    case Some(n) => IntToString(n)
    case None => "undefined"
  }

  /** The only column types the legacy dialect produces. */
  const LegacyTypes: set<string> := {" JSON", " CHAR", " Date", " INT", " FLOAT", " BOOLEAN"}

  /** `sql_type`: the column type of field `f` of table `tableName`; the first
      matching rule wins. */
  function SqlType(tableName: string, f: string, mf: TypeDesc, pg: bool): (sql: string)
    ensures !pg ==> sql in LegacyTypes
    ensures IsJsonColumn(tableName, f) ==> sql == " JSON"
  {
    if IsJsonColumn(tableName, f) then " JSON"
    else if IsRefLike(mf) then
      if !pg then " CHAR"
      else if AllEnumerations(mf.types) then " character varying(100)"
      else if mf.strLen.None? then " uuid"
      else Varchar(Max(36, mf.strLen.value))
    else if mf.strLen.Some? then
      if pg then (if mf.strLen.value != 0 then Varchar(mf.strLen.value) else " text") else " CHAR"
    else if mf.datePart != "" then
      if !pg || mf.datePart == "date" then " Date"
      else if mf.datePart == "date_time" then " timestamp with time zone"
      else " time without time zone"
    else if mf.digits.Some? then
      if mf.fractionFigits == Some(0) then
        if pg then (if mf.digits.value < 7 then " integer" else " bigint") else " INT"
      else if pg then " numeric(" + IntToString(mf.digits.value) + "," + FractionText(mf.fractionFigits) + ")"
      else " FLOAT"
    else if "boolean" in mf.types then " BOOLEAN"
    else if "json" in mf.types then " JSON"
    else if pg then " character varying(255)" else " CHAR"
  }

  lemma WidthLiterals()
    ensures IntToString(100) == "100" && IntToString(255) == "255"
  {
    assert NatToString(10) == "10";
    assert NatToString(25) == "25";
  }

  /** In PostgreSQL a reference column is an enumeration varchar(100), a
      `uuid`, or a varchar at least 36 wide; never narrower than a guid. */
  lemma ReferenceColumn(tableName: string, f: string, mf: TypeDesc)
    requires !IsJsonColumn(tableName, f) && IsRefLike(mf)
    ensures var sql := SqlType(tableName, f, mf, true);
      && (AllEnumerations(mf.types) ==> sql == Varchar(100))
      && (!AllEnumerations(mf.types) && mf.strLen.None? ==> sql == " uuid")
      && (!AllEnumerations(mf.types) && mf.strLen.Some? ==> sql == Varchar(Max(36, mf.strLen.value)))
      && (sql == " uuid" || exists w :: 36 <= w && sql == Varchar(w))
  {
    WidthLiterals();
    var sql := SqlType(tableName, f, mf, true);
    if AllEnumerations(mf.types) {
      assert sql == Varchar(100);
    } else if mf.strLen.Some? {
      assert sql == Varchar(Max(36, mf.strLen.value));
    }
  }

  /** No JSON pair and no reference: the rules after the reference rule apply. */
  predicate PlainColumn(tableName: string, f: string, mf: TypeDesc) {
    !IsJsonColumn(tableName, f) && !IsRefLike(mf)
  }

  /** A declared string length gives a varchar of that length in PostgreSQL,
      or `text` for length zero, and `CHAR` in the legacy dialect. */
  lemma StringColumn(tableName: string, f: string, mf: TypeDesc)
    requires PlainColumn(tableName, f, mf) && mf.strLen.Some?
    ensures SqlType(tableName, f, mf, true) == (if mf.strLen.value != 0 then Varchar(mf.strLen.value) else " text")
    ensures SqlType(tableName, f, mf, false) == " CHAR"
  {
  }

  /** A date part gives `Date` in the legacy dialect; in PostgreSQL a date,
      a timestamp with time zone for `date_time`, and a time otherwise. */
  lemma DateColumn(tableName: string, f: string, mf: TypeDesc)
    requires PlainColumn(tableName, f, mf) && mf.strLen.None? && mf.datePart != ""
    ensures SqlType(tableName, f, mf, false) == " Date"
    ensures mf.datePart == "date" ==> SqlType(tableName, f, mf, true) == " Date"
    ensures mf.datePart == "date_time" ==> SqlType(tableName, f, mf, true) == " timestamp with time zone"
    ensures mf.datePart != "date" && mf.datePart != "date_time" ==>
      SqlType(tableName, f, mf, true) == " time without time zone"
  {
  }

  /** Digits with a zero scale give an integer: `integer` below seven digits
      and `bigint` from seven on in PostgreSQL, `INT` in the legacy dialect. */
  lemma IntegerColumn(tableName: string, f: string, mf: TypeDesc)
    requires PlainColumn(tableName, f, mf) && mf.strLen.None? && mf.datePart == ""
    requires mf.digits.Some? && mf.fractionFigits == Some(0)
    ensures SqlType(tableName, f, mf, true) == (if mf.digits.value < 7 then " integer" else " bigint")
    ensures SqlType(tableName, f, mf, false) == " INT"
  {
  }

  /** Digits with any other scale, or none, give `numeric(digits,scale)` in
      PostgreSQL and `FLOAT` in the legacy dialect. */
  lemma DecimalColumn(tableName: string, f: string, mf: TypeDesc)
    requires PlainColumn(tableName, f, mf) && mf.strLen.None? && mf.datePart == ""
    requires mf.digits.Some? && mf.fractionFigits != Some(0)
    ensures SqlType(tableName, f, mf, true) ==
      " numeric(" + IntToString(mf.digits.value) + "," + FractionText(mf.fractionFigits) + ")"
    ensures SqlType(tableName, f, mf, false) == " FLOAT"
  {
  }

  /** With none of the earlier rules applying, a `boolean` member gives a
      boolean column and otherwise a `json` member a JSON column, in both
      dialects; anything else is a 255-wide varchar or a legacy `CHAR`. */
  lemma MemberTypeColumn(tableName: string, f: string, mf: TypeDesc, pg: bool)
    requires PlainColumn(tableName, f, mf) && mf.strLen.None? && mf.datePart == "" && mf.digits.None?
    ensures "boolean" in mf.types ==> SqlType(tableName, f, mf, pg) == " BOOLEAN"
    ensures "boolean" !in mf.types && "json" in mf.types ==> SqlType(tableName, f, mf, pg) == " JSON"
    ensures "boolean" !in mf.types && "json" !in mf.types ==>
      SqlType(tableName, f, mf, pg) == (if pg then Varchar(255) else " CHAR")
  {
    WidthLiterals();
  }

  /** The legacy rendering of a PostgreSQL column type. */
  function LegacyOf(p: string): string {
    if StartsWith(p, " character varying(") || p == " uuid" || p == " text" then " CHAR"
    else if p == " timestamp with time zone" || p == " time without time zone" then " Date"
    else if p == " integer" || p == " bigint" then " INT"
    else if StartsWith(p, " numeric(") then " FLOAT"
    else p
  }

  lemma StartsWithAppend(p: string, x: string)
    ensures StartsWith(p + x, p)
  {
    assert (p + x)[..|p|] == p;
  }

  lemma DiffersAt(p: string, q: string, i: nat)
    requires i < |p| && i < |q| && p[i] != q[i]
    ensures !StartsWith(p, q)
  {
  }

  /** Every varchar column is a legacy `CHAR`. */
  lemma LegacyVarchar(x: string)
    ensures LegacyOf(" character varying(" + x) == " CHAR"
  {
    StartsWithAppend(" character varying(", x);
  }

  /** Every numeric column is a legacy `FLOAT`. */
  lemma LegacyNumeric(x: string)
    ensures LegacyOf(" numeric(" + x) == " FLOAT"
  {
    var p := " numeric(" + x;
    assert p[1] == 'n';
    DiffersAt(p, " character varying(", 1);
    StartsWithAppend(" numeric(", x);
  }

  /** The dialect never changes which rule applies, only how its column type
      is spelled: the legacy type is the legacy rendering of the PostgreSQL one. */
  lemma DialectsAgree(tableName: string, f: string, mf: TypeDesc)
    ensures SqlType(tableName, f, mf, false) == LegacyOf(SqlType(tableName, f, mf, true))
  {
    if IsJsonColumn(tableName, f) {
    } else if IsRefLike(mf) {
      ReferenceDialects(tableName, f, mf);
    } else if mf.strLen.Some? {
      StringDialects(tableName, f, mf);
    } else if mf.datePart != "" {
      DateDialects(tableName, f, mf);
    } else if mf.digits.Some? {
      NumberDialects(tableName, f, mf);
    } else {
      OtherDialects(tableName, f, mf);
    }
  }

  lemma ReferenceDialects(tableName: string, f: string, mf: TypeDesc)
    requires !IsJsonColumn(tableName, f) && IsRefLike(mf)
    ensures SqlType(tableName, f, mf, false) == LegacyOf(SqlType(tableName, f, mf, true))
  {
    if AllEnumerations(mf.types) {
      LegacyVarchar("100)");
    } else if mf.strLen.Some? {
      LegacyVarchar(IntToString(Max(36, mf.strLen.value)) + ")");
    }
  }

  lemma StringDialects(tableName: string, f: string, mf: TypeDesc)
    requires !IsJsonColumn(tableName, f) && !IsRefLike(mf) && mf.strLen.Some?
    ensures SqlType(tableName, f, mf, false) == LegacyOf(SqlType(tableName, f, mf, true))
  {
    if mf.strLen.value != 0 {
      LegacyVarchar(IntToString(mf.strLen.value) + ")");
    }
  }

  lemma DateDialects(tableName: string, f: string, mf: TypeDesc)
    requires !IsJsonColumn(tableName, f) && !IsRefLike(mf) && mf.strLen.None? && mf.datePart != ""
    ensures SqlType(tableName, f, mf, false) == LegacyOf(SqlType(tableName, f, mf, true))
  {
    DiffersAt(SqlType(tableName, f, mf, true), " character varying(", 1);
  }

  lemma NumberDialects(tableName: string, f: string, mf: TypeDesc)
    requires !IsJsonColumn(tableName, f) && !IsRefLike(mf) && mf.strLen.None? && mf.datePart == ""
    requires mf.digits.Some?
    ensures SqlType(tableName, f, mf, false) == LegacyOf(SqlType(tableName, f, mf, true))
  {
    if mf.fractionFigits != Some(0) {
      var x := IntToString(mf.digits.value) + "," + FractionText(mf.fractionFigits) + ")";
      assert SqlType(tableName, f, mf, true) == " numeric(" + x;
      LegacyNumeric(x);
    } else {
      LegacyIntegers();
    }
  }

  /** Both integer widths are a legacy `INT`. */
  lemma LegacyIntegers()
    ensures LegacyOf(" integer") == " INT" && LegacyOf(" bigint") == " INT"
  {
    DiffersAt(" integer", " character varying(", 1);
    DiffersAt(" bigint", " character varying(", 1);
    DiffersAt(" integer", " numeric(", 1);
    DiffersAt(" bigint", " numeric(", 1);
  }

  lemma OtherDialects(tableName: string, f: string, mf: TypeDesc)
    requires !IsJsonColumn(tableName, f) && !IsRefLike(mf) && mf.strLen.None? && mf.datePart == ""
    requires mf.digits.None?
    ensures SqlType(tableName, f, mf, false) == LegacyOf(SqlType(tableName, f, mf, true))
  {
    if !("boolean" in mf.types || "json" in mf.types) {
      assert SqlType(tableName, f, mf, true) == " character varying(" + "255)";
      LegacyVarchar("255)");
    }
  }

  /** `sql_mask`: a comma, then the name in backticks, qualified by the `_t_`
      alias when `t` is set. */
  function SqlMask(f: string, t: bool): (r: string)
    ensures StartsWith(r, ", ") && r[|r| - 1] == '`'
    ensures |r| == |f| + (if t then 8 else 4)
    ensures r[|r| - |f| - 2] == '`' && r[|r| - |f| - 1..|r| - 1] == f
    ensures t ==> r[2..6] == "_t_."
  {
    ", " + (if t then "_t_." else "") + ("`" + f + "`")
  }

  /** The discriminator column's name: the first 29 characters of the base
      name (`f0`, or `f` when `f0` is not given) followed by `_T`. */
  function DiscriminatorName(f: string, f0: string): (name: string)
    ensures 2 <= |name| <= 31 && name[|name| - 2..] == "_T"
    ensures var base := if f0 == "" then f else f0;
      && |name| == (if |base| <= 29 then |base| else 29) + 2
      && StartsWith(base, name[..|name| - 2]) && (|base| <= 29 ==> name[..|name| - 2] == base)
  {
    Take(if f0 == "" then f else f0, 29) + "_T"
  }

  /** `sql_composite`: the column definition of field `f`'s discriminator, or
      nothing for a single-type field and for the generic `type` field.
      `fields` is the class's field table; the source reads `fields[f]`
      without a check. */
  function SqlComposite(fields: Dict<FieldDesc>, f: string, f0: string, pg: bool): (r: string)
    requires f in fields.entries
    ensures r == "" <==> !(|fields.entries[f].fieldType.types| > 1 && f != "type")
    ensures r != "" && pg ==> r == ", \"" + DiscriminatorName(f, f0) + "\" character varying(255)"
    ensures r != "" && !pg ==> r == ", `" + DiscriminatorName(f, f0) + "` CHAR"
  {
    if |fields.entries[f].fieldType.types| > 1 && f != "type" then
      var name := DiscriminatorName(f, f0);
      if pg then ", \"" + name + "\" character varying(255)"
      else SqlMask(name, false) + " CHAR"
    else ""
  }
}

=== FILE: strings.dfy ===
/** The JavaScript string and array primitives the schema engine relies on:
    `split`, `join`, `indexOf` (on strings and on arrays), `substr(0, n)`,
    `replace(/,/g, ...)` and number-to-string conversion. */
module Strings {

  /** `s.split(sep)` for a one-character separator: every segment, in order,
      empty segments included; the empty string splits into `[""]`. */
  function Split(s: string, sep: char): (parts: seq<string>)
    ensures |parts| >= 1
    ensures |parts| == 1 <==> sep !in s
    ensures forall i :: 0 <= i < |parts| ==> sep !in parts[i]
    ensures sep !in s ==> parts == [s]
    decreases |s|
  {
    if |s| == 0 then [""]
    else if s[0] == sep then [""] + Split(s[1..], sep)
    else
      var rest := Split(s[1..], sep);
      assert s == [s[0]] + s[1..];
      [[s[0]] + rest[0]] + rest[1..]
  }

  /** `parts.join(sep)` for a non-empty array. */
  function Join(parts: seq<string>, sep: char): string
    requires |parts| >= 1
  {
    if |parts| == 1 then parts[0] else parts[0] + [sep] + Join(parts[1..], sep)
  }

  /** Splitting peels off a separator-free head segment. */
  lemma {:induction false} SplitCons(a: string, sep: char, b: string)
    requires sep !in a
    ensures Split(a + [sep] + b, sep) == [a] + Split(b, sep)
  {
    var s := a + [sep] + b;
    if |a| == 0 {
      assert s[1..] == b;
    } else {
      assert s[0] == a[0];
      assert s[1..] == a[1..] + [sep] + b;
      SplitCons(a[1..], sep, b);
      assert [a[0]] + a[1..] == a;
    }
  }

  /** `join` then `split` returns the original segments when none contains
      the separator. */
  lemma {:induction false} SplitJoin(parts: seq<string>, sep: char)
    requires |parts| >= 1
    requires forall i :: 0 <= i < |parts| ==> sep !in parts[i]
    ensures Split(Join(parts, sep), sep) == parts
  {
    if |parts| > 1 {
      SplitJoin(parts[1..], sep);
      SplitCons(parts[0], sep, Join(parts[1..], sep));
      assert [parts[0]] + parts[1..] == parts;
    }
  }

  /** Appending one segment to a join adds the separator and the segment. */
  lemma {:induction false} JoinSnoc(parts: seq<string>, x: string, sep: char)
    requires |parts| >= 1
    ensures Join(parts + [x], sep) == Join(parts, sep) + [sep] + x
  {
    if |parts| > 1 {
      assert (parts + [x])[1..] == parts[1..] + [x];
      JoinSnoc(parts[1..], x, sep);
    }
  }

  /** A two-segment path `a.b` splits into exactly `[a, b]`. */
  lemma SplitPath(a: string, b: string)
    requires '.' !in a && '.' !in b
    ensures Split(a + "." + b, '.') == [a, b]
  {
    SplitCons(a, '.', b);
  }

  /** `s.indexOf(prefix) == 0`. */
  predicate StartsWith(s: string, prefix: string) {
    |prefix| <= |s| && s[..|prefix|] == prefix
  }

  /** `needle` occurs in `hay` starting at position `i`. */
  predicate OccursAt(hay: string, needle: string, i: int) {
    0 <= i <= |hay| - |needle| && hay[i..i + |needle|] == needle
  }

  /** `hay.indexOf(needle) != -1`: `needle` occurs as a substring of `hay`
      (the empty string occurs in every string). */
  predicate Contains(hay: string, needle: string) {
    exists i | 0 <= i <= |hay| - |needle| :: OccursAt(hay, needle, i)
  }

  /** A needle with a character the haystack lacks does not occur in it. */
  lemma MissingChar(hay: string, needle: string, i: int)
    requires 0 <= i < |needle| && needle[i] !in hay
    ensures !Contains(hay, needle)
  {
  }

  /** `xs.indexOf(x)` on an array: the first position holding `x`, or -1. */
  function IndexOf(xs: seq<string>, x: string): (i: int)
    ensures -1 <= i < |xs|
    ensures i == -1 <==> x !in xs
    ensures i >= 0 ==> xs[i] == x && x !in xs[..i]
  {
    if |xs| == 0 then -1
    else if xs[0] == x then 0
    else
      var j := IndexOf(xs[1..], x);
      assert xs == [xs[0]] + xs[1..];
      if j == -1 then -1
      else
        assert xs[..j + 1] == [xs[0]] + xs[1..][..j];
        j + 1
  }

  /** No entry repeats within an array. */
  predicate Distinct(a: seq<string>) {
    forall i, j :: 0 <= i < j < |a| ==> a[i] != a[j]
  }

  /** In a repeat-free array the first occurrence of `a[i]` is at `i`. */
  lemma IndexOfDistinct(a: seq<string>, i: int)
    requires Distinct(a) && 0 <= i < |a|
    ensures IndexOf(a, a[i]) == i
  {
  }

  /** `s.substr(0, n)`: at most the first `n` characters. */
  function Take(s: string, n: nat): (t: string)
    ensures |t| <= n && |t| <= |s|
    ensures |t| == n || t == s
    ensures t == s[..|t|]
  {
    if n <= |s| then s[..n] else s
  }

  /** `s.replace(/c/g, d)`: every occurrence of `c` becomes `d`. */
  function ReplaceAll(s: string, c: char, d: char): (t: string)
    ensures |t| == |s|
    ensures forall i :: 0 <= i < |s| ==> t[i] == (if s[i] == c then d else s[i])
  {
    if |s| == 0 then ""
    else [if s[0] == c then d else s[0]] + ReplaceAll(s[1..], c, d)
  }

  /** The decimal digit character for `d`. */
  function DigitChar(d: nat): char
    requires d < 10
  {
    "0123456789"[d]
  }

  /** `String(n)` for a non-negative integer: its decimal digits, most
      significant first, without leading zeros. */
  function NatToString(n: nat): (s: string)
    ensures |s| >= 1
    ensures forall i :: 0 <= i < |s| ==> '0' <= s[i] <= '9'
  {
    if n < 10 then [DigitChar(n)] else NatToString(n / 10) + [DigitChar(n % 10)]
  }

  /** `String(i)` for an integer: a leading minus sign for negatives. */
  function IntToString(i: int): string {
    if i < 0 then "-" + NatToString(-i) else NatToString(i)
  }
}

=== FILE: wrappers.dfy ===
/** Optional values and the three outcomes of a JavaScript property access. */
module Wrappers {

  /** A value that may be absent (`undefined` in the source). */
  datatype Option<+T> = None | Some(value: T)

  /** What reading a nested property produces: a value, `undefined`, or a
      thrown `TypeError` (reading a property of `undefined`). */
  datatype JsResult<+T> = Defined(value: T) | Undefined | TypeError {

    /** Lifts an optional value: `None` reads as `undefined`. */
    static function OfOption(o: Option<T>): JsResult<T> {
      match o
      case Some(v) => Defined(v)
      case None => Undefined
    }
  }
}
